=== FILE: README.md ===
# GoNoisy crawler core, modelled in Dafny

GoNoisy generates background web traffic. It picks a root URL at random,
fetches it, and collects the links on the page. It then does a random walk:
it picks one link, fetches it, pauses for a random time, and either moves to
the new page's links or blacklists the link as a dead end. The walk stops at
a dead end, at the configured maximum depth, or when the crawl timeout has
passed. All of this lives in `doc.go`.

The model covers that core as pure functions over immutable values:

- `Strings`: Go's `strings.Contains` and `strings.HasPrefix`. The search is
  proved equal to a plain "occurs somewhere" definition.
- `Whitespace`: `removeWhiteSpace` and `removeWhiteSpaceNewLine`. The three
  guarded `strings.Replace` passes are proved equal to one deletion of
  spaces, tabs and newlines.
- `UrlValidator`: `IsValidUrl`. The regular expression
  `(https?|ftp|file)://[-A-Za-z0-9+&@#/%?=~_|!:,.;]+[-A-Za-z0-9+&@#/%=~_|]`
  is matched unanchored, as Go's `MatchString` does. The model is a scanner,
  proved to accept exactly the strings in which some substring matches the
  expression.
- `Filter`: `Is_Blacklisted` (substring test against each entry) and
  `Should_accept_url`.
- `Links`: `normalize_link`, `Normalize_link_old` and `Extract_Urls`.
- `Random`: `CryptRandom`, `choiseRandomLink` and `SleepRandom`.
  - A `rand.Int` call with a bound that is not positive is modelled as a
    panic (`Panicked(EmptyRange)`).
  - The unreachable `panic("never")` is modelled as `Panicked(NeverReached)`.
- `Crawler`:
  - `is_Timeout_reached`
  - `Remove_and_blacklist` with `removeVisitedLink`
  - one step of `Browse_from_links`
  - the recursive walk it performs
  - one round of the endless loop in `Crawl`

The crawler object's mutable fields become a `CrawlState` value. That value
holds the frontier (`links`), the growing blacklist and the depth.

Everything that comes from outside the program is a parameter:

- the clock reading at each depth
- the random draws, which are natural numbers folded into range with `%`
- the fetched page, or `None` when the request failed
- the link scanner `All`
- `url.Parse` together with `ResolveReference`
- the order in which Go iterates a map, which must list each member of the
  frontier exactly once

At `doc.go:213`, `Extract_Urls` is called a second time on `subpage`. That
value is the `res.Body` stream that `requestBody` returns (doc.go:88-96), and
line 205 has already handed it to the link scanner `All` (doc.go:148). A
scanner that reads the stream to its end leaves nothing for the second call,
so as written the frontier becomes empty after a page with more than one
link. The next call then returns at doc.go:180-184 as a dead end. A walk
whose every page yields two or more links therefore ends right after its
first visit and never reaches the depth limit. The model keeps the evident
intent: the frontier becomes the links extracted at line 205. The code as
written is modelled separately (`Crawler.StepAsWritten`, see Findings).

## Model

| member | source | states |
|---|---|---|
| `Strings.ContainsIsSubstring` | doc.go:110 | The left-to-right `strings.Contains` search answers true exactly when the needle occurs at some index of the haystack. |
| `Strings.ContainsChar` | doc.go:320 | Searching for a one-character string is membership of that character. |
| `Whitespace.Strip` | doc.go:321 | `strings.Replace(s, c, "", -1)` leaves no deleted character in its result and never lengthens the string. |
| `Whitespace.StripIdentity` | doc.go:320-325 | Deleting a character set leaves a string unchanged exactly when none of its characters is in the set. |
| `Whitespace.StripTwice` | doc.go:330-338 | Two successive deletion passes equal one pass deleting the union of both sets. |
| `Whitespace.GuardedStrip` | doc.go:320-325 | The `strings.Contains` guard before a replace is only a shortcut: the guarded and the unguarded replace agree on every input. |
| `Whitespace.RemoveWhiteSpaceIsStrip` | doc.go:319-326 | `removeWhiteSpace` deletes exactly the spaces, and its result holds none. |
| `Whitespace.RemoveWhiteSpaceNewLineIsStrip` | doc.go:328-340 | The three guarded passes equal a single deletion of spaces, tabs and newlines. |
| `Whitespace.RemoveWhiteSpaceNewLineSpec` | doc.go:328-340 | The result holds no space, tab or newline. The function distributes over concatenation, so nothing is reordered. Every other character survives. Applying it twice is the same as once. |
| `Whitespace.RemoveWhiteSpaceNewLineKeepsClean` | doc.go:328-340 | A string is returned unchanged exactly when it holds no space, tab or newline. |
| `UrlValidator.ScanFromSpec` | doc.go:342-343 | Scanning from index i accepts exactly when the expression matches a substring starting at i or later. |
| `UrlValidator.IsValidUrlMatches` | doc.go:342-353 | `IsValidUrl` is true exactly when some substring is matched by scheme, `://`, one or more body-class characters, then one last-class character. |
| `UrlValidator.AcceptedHasSeparator` | doc.go:351 | Every accepted string contains `://` and has at least eight characters. |
| `UrlValidator.AcceptsAt` | doc.go:351 | A scheme and `://` at any index, followed by a body-class and then a last-class character, make the whole string valid, whatever surrounds them. |
| `UrlValidator.TestUrlsAccepted` | doc_test.go:7-38 | The three test URLs are accepted. |
| `UrlValidator.NonUrlsRejected` | doc.go:342-353 | The empty string `""` and the text `not a url` are rejected. |
| `UrlValidator.WithoutSchemeRejected` | doc.go:342-353 | A string in which no `http`, `https`, `ftp` or `file` scheme is immediately followed by `://` at any index is rejected. |
| `Filter.IsBlacklisted` | doc.go:108-118 | The in-order search over the entries answers true exactly when some entry occurs as a substring of the URL. |
| `Filter.ShouldAcceptUrl` | doc.go:121-138 | A URL is accepted exactly when it is non-empty, matches the expression somewhere, and contains no blacklist entry. An accepted URL is valid and is not itself an entry. |
| `Filter.EmptinessCheckRedundant` | doc.go:122-130 | The length test is subsumed by the validity test. |
| `Filter.BlacklistEdges` | doc.go:108-118 | An empty blacklist rejects nothing. An empty entry rejects every URL. |
| `Filter.BlacklistMonotone` | doc.go:108-118 | Growing the blacklist never un-blacklists a URL or admits a URL that was rejected. |
| `Filter.BlacklistedStaysRejected` | doc.go:166-167 | Once an entry is appended, every URL containing it stays rejected, however the list grows afterwards. |
| `Filter.SubstringSemantics` | doc.go:110 | The entry `ads.` rejects a URL where it appears in the host name and one where it appears in the file name: matching is by substring. |
| `Links.NormalizeLink` | doc.go:296-317 | The result never holds whitespace. When either URL fails to parse, the result is the stripped link. When both parse, the result is the link resolved against the root URL, with spaces, tabs and newlines deleted. |
| `Links.NormalizeLinkIdempotent` | doc.go:296-317 | Normalizing twice equals normalizing once, provided resolving an already-resolved absolute URL against the same base gives it back. |
| `Links.NormalizeLinkOld` | doc.go:100-105 | The link is always kept, as the suffix of the result. The result differs from the link only for a root-relative path (one leading slash, not two). For such a path the result is exactly the root URL followed by the link. |
| `Links.NormalizeLinkOldIdempotent` | doc.go:100-105 | For a root URL that does not start with a slash, applying the old normalizer twice is the same as once. |
| `Links.AcceptedLinks` | doc.go:148-156 | A URL is collected exactly when it is the normalized form of some scanned link and the filter accepts it. |
| `Links.ExtractUrls` | doc.go:141-159 | No body gives no links. Every link returned is accepted and whitespace-free. With a body, a URL is returned exactly when some scanned link normalizes to it and the filter accepts it. |
| `Links.ExtractionRespectsBlacklist` | doc.go:141-159 | A blacklisted URL never comes out of an extraction against that blacklist or any extension of it. |
| `Random.CryptRandom` | doc.go:253-258 | It panics exactly when the range is empty. Otherwise the value lies in [0, max - min), not in [min, max). |
| `Random.CryptRandomIgnoresMin` | doc.go:253-258 | Asked for a value in [5, 10), the function returns 0 on the zero draw. |
| `Random.CryptRandomFrom` | doc.go:253-258 | Corrected version: it panics exactly when the range is empty, and otherwise returns a value in [min, max). |
| `Random.CryptRandomFromCovers` | doc.go:253-258 | Every value of [min, max) is produced by some draw. For ranges starting at 0 the corrected and written versions agree. |
| `Random.EnumerationSize` | doc.go:274 | A map iteration order that lists every key once has exactly as many entries as the map. |
| `Random.NthInOrder` | doc.go:274-281 | The count-down loop returns the key at position i of the iteration order when i is in range. It falls through to `panic("never")` exactly otherwise. |
| `Random.ChooseRandomLink` | doc.go:270-282 | It succeeds exactly when the set is non-empty, and then returns a member. An empty set panics in `rand.Int`, never at `panic("never")`. |
| `Random.ChooseRandomLinkCovers` | doc.go:270-282 | Every member of a non-empty set is chosen by some draw. |
| `Random.SleepRandom` | doc.go:260-268 | As written: a zero maximum disables the pause. Otherwise it panics exactly when max ≤ min, and the pause lies in [0, max - min), not in [min, max). |
| `Random.SleepRandomFrom` | doc.go:260-268 | Corrected version: a zero maximum disables the pause. Otherwise it panics exactly when max ≤ min, and the pause lies in [min, max). |
| `Random.SleepRandomShifted` | doc.go:260-268 | The written and corrected pauses panic under the same settings. When enabled, the corrected pause is the written one plus the minimum. Asked for [5, 10), the written pause is 0 ms on the zero draw. |
| `Crawler.IsTimeoutReached` | doc.go:224-233 | The timeout is reached exactly when timeouts are enabled and the clock is strictly later than the start plus ten seconds. |
| `Crawler.TimeoutBoundary` | doc.go:229-232 | `After` is strict: exactly ten seconds after the start the timeout is not reached, and one nanosecond later it is. |
| `Crawler.TimeoutStaysReached` | doc.go:224-233 | A reached timeout stays reached at every later clock reading. |
| `Crawler.RemoveAndBlacklist` | doc.go:166-170 | The link leaves the frontier and nothing else does. The blacklist keeps its old entries in order and has the link itself appended as its one new, last entry. The depth is unchanged. |
| `Crawler.Step` | doc.go:179-219 | The three early returns are checked in source order. A crash happens exactly when the step gets past them with inconsistent sleep settings. A move happens exactly when the step gets past them with consistent sleep settings. A move visits a frontier member and goes one level deeper. More than one candidate replaces the frontier and keeps the blacklist. Otherwise the visited link leaves the frontier and is appended to the blacklist. |
| `Crawler.StepAsWritten` | doc.go:205-216 | As written: the step moves exactly when the corrected step does. After a page with more than one link, the frontier is the second extraction at line 213, the blacklist is kept and the depth grows by one. When the second extraction equals the first, the step is the corrected `Step`. |
| `Crawler.RereadEmptyEndsWalk` | doc.go:180-184 | When the second extraction at line 213 is empty, a move to a page with more than one link leaves an empty frontier. The next call then stops as a dead end. |
| `Crawler.StepDecision` | doc.go:180-197 | A stop on a timeout happens only with a non-empty frontier, a depth within the limit, timeouts enabled and the clock past start + 10 s. A depth stop needs a non-empty frontier and a depth past the limit. A dead-end stop needs an empty frontier. A crash passes all three checks with inconsistent sleep settings. |
| `Crawler.CandidatesAt` | doc.go:203-205 | Every candidate link of a visit is accepted against the current blacklist and is whitespace-free. `Crawler.MovedCandidates` and `Crawler.WalkHopsFromPages` state which links they are. |
| `Crawler.MovedCandidates` | doc.go:199-205 | When a step moves, its candidates are exactly the links `Extract_Urls` finds on the page fetched at that depth, resolved against the visited link and filtered by the blacklist of that moment. |
| `Crawler.Walk` | doc.go:179-219 | The walk makes at most `Max_depth + 1 - depth` visits, and its depth grows by one per visit. The final blacklist is the initial one followed by exactly the visited links that yielded at most one candidate, in order. A walk without visits leaves the state as it was. The first visit is a member of the starting frontier. |
| `Crawler.WalkEmptyFrontier` | doc.go:180-184 | An empty frontier ends the walk at once as a dead end. |
| `Crawler.WalkEndReasons` | doc.go:179-219 | A depth-limit end comes after exactly the allowed number of visits. A timeout end happens only with timeouts enabled. A dead end leaves an empty frontier, reached at once or after a last visit with at most one candidate. A panic happens only with inconsistent sleep settings. `Crawler.WalkEndConditions` ties each of these ends to the final state. |
| `Crawler.WalkEndsAtFinal` | doc.go:179-219 | Every walk ends with the decision of the step taken in its final state: that step stops for the walk's reason, or crashes with the walk's panic. |
| `Crawler.WalkEndConditions` | doc.go:180-197 | Each way a walk can end is tied to its final state. A timeout end has a non-empty frontier, a depth within the limit, timeouts enabled and a clock reading past start + 10 s at that depth. A depth-limit end has a non-empty frontier and a depth past the limit. A dead end has an empty frontier. A panic end passes all three checks with inconsistent sleep settings. |
| `Crawler.WalkReachesDepthLimit` | doc.go:186-191 | Take a walk with timeouts off, consistent sleep settings and a non-empty frontier, whose every visit yields two or more links. It ends at the depth limit after exactly the allowed number of visits. |
| `Crawler.WalkSound` | doc.go:199-213 | From a frontier of whitespace-free valid URLs, every visited link is a valid URL and the final frontier stays sound. |
| `Crawler.WalkFollows` | doc.go:205-218 | Whatever relation holds between every move's candidates and its depth, visited link and blacklist holds at every hop of a walk. The blacklist at hop k is the starting one followed by the dead ends of the hops before it. |
| `Crawler.WalkHopsFromPages` | doc.go:203-218 | Hop k of a walk has as candidates exactly the links of the page fetched at depth `depth + k`, resolved against the link visited there. They are filtered by the starting blacklist followed by the dead ends of the earlier hops. |
| `Crawler.MoveKeepsClear` | doc.go:199-216 | A move visits a link that contains no entry of a base blacklist when no frontier member does. The new frontier keeps that property. The new blacklist is the old one followed by the visited link exactly when it was a dead end. |
| `Crawler.WalkVisitsClear` | doc.go:199-218 | From a frontier in which no link contains an entry of a base blacklist, no visit of the walk fetches a link that contains one (`Is_Blacklisted` is false for every visit). |
| `Crawler.WalkNeverRevisitsDeadEnds` | doc.go:210-216 | From a frontier disjoint from the blacklist, no visit fetches a blacklist entry. A link found to be a dead end is never visited again in that walk. |
| `Crawler.CrawlRound` | doc.go:237-250 | An empty root list panics, and otherwise the round starts from a configured root. The walk makes at most `Max_depth + 1` visits. The blacklist grows by exactly the walk's dead ends. The first visit is a link extracted from the root page. When the root page yields no link, the walk ends at once as a dead end, with the blacklist unchanged. |
| `Crawler.FirstRound` | doc.go:237-248 | The first round panics exactly when there are no root URLs. Otherwise its blacklist is the configured `Blacklisted_urls` followed by the walk's dead ends. |
| `Crawler.ExtractionStartsClean` | doc.go:244-245 | The links extracted from the root page are whitespace-free valid URLs. None of them is, or contains, an entry of the blacklist they were filtered with. |
| `Crawler.CleanStartVisits` | doc.go:179-219 | From such a frontier, every visit is a valid URL that neither is nor contains an entry of the starting blacklist, and no dead end is visited twice. |
| `Crawler.CrawlRoundVisits` | doc.go:237-250 | Every link a round visits is a valid URL that neither is nor contains an entry of the blacklist the round started with (`Is_Blacklisted` is false for it). No dead-end link is visited twice. |

## Left out

- HTTP fetching (`request`, `requestBody` with its 5-second client timeout) is I/O. A fetched page enters as `Option<Page>`, with `None` for a failed request.
- `loadConfig` (reading and decoding `config.json`) is I/O. The configuration is a `Config` value.
- `All` (the link scanner) and `url.Parse` with `ResolveReference(...).String()` are library code. They are parameters: `scan`, and `resolve`, which reports which of the two parses failed first.
- The clock (`time.Now`, `getCurTime`) and `time.Sleep` are left out. Clock readings enter as parameters, and the pause length is computed but not slept.
- Logging with `fmt.Printf` has no effect on the state and is left out.
- The distribution of `crypto/rand` is not modelled. A draw is any natural number folded into range with `%`, so the contracts state ranges and panic conditions only.
- Random.CryptRandom: the 64-bit conversion `int64(maxRange - minRange)` is not modelled, because integers are unbounded here. An overflowing difference is not covered.
- Crawler.CrawlRound: models one iteration of the endless `for` loop in `Crawl`. The next iteration starts again with the blacklist this one left behind.
- Crawler.Walk: a step that panics in `SleepRandom` has already fetched its page. The hop list records only completed visits, so that last fetch is not listed.
- Crawler.Step: at `doc.go:213` the frontier becomes the links extracted at line 205, not the result of re-reading the `res.Body` stream that line 205 already consumed. The walk is built on this corrected step. `Crawler.StepAsWritten` models the re-read, with its result as a parameter, and `Crawler.RereadEmptyEndsWalk` shows that an empty re-read ends the walk at the next call (see Findings).
- Crawler.Step: the pause is computed with the corrected `Random.SleepRandomFrom` (see Findings). Only its panic condition affects the walk, and `Random.SleepRandomShifted` proves that condition is the same for both versions.
- `GetUrlValidator` compiles the expression once behind `sync.Once`. It is a caching detail with no effect on results.
- `User_agents` is loaded but never used by the core.
- Go strings are byte strings, while the model uses `string`, a sequence of characters. The characters the code deletes (whitespace) and matches against character classes are ASCII. Blacklist entries may hold any character, and `strings.Contains` compares bytes. On valid UTF-8 a byte-level substring is also a character-level substring, because UTF-8 is self-synchronizing: no character's encoding occurs inside another's or straddles a boundary. So the results agree on valid UTF-8. A page or blacklist entry holding invalid UTF-8 cannot be expressed in the model.

## Findings

| source | as written | input that shows it | evidently intended | confidence | as-written member | corrected member |
|---|---|---|---|---|---|---|
| doc.go:253-258 | `CryptRandom(minRange, maxRange)` draws from [0, maxRange - minRange) and returns that value without adding `minRange` | `CryptRandom(5, 10)` on the zero draw returns 0, below the minimum 5; `SleepRandom` then pauses outside [Min_sleep, Max_sleep) | a value in [minRange, maxRange), as the name and `SleepRandom`'s use suggest | not executed | `Random.CryptRandomIgnoresMin`, `Random.SleepRandomShifted` | `Random.CryptRandomFrom`, `Random.SleepRandomFrom` |
| doc.go:213 | after a page with more than one link, the frontier becomes `Extract_Urls(subpage, random_link)` a second time, on the `res.Body` stream (doc.go:88-96) that line 205 already handed to `All` | any page with two or more links, when `All` reads the body to its end: the second extraction is empty, and the next call returns at doc.go:180-184 as a dead end | the frontier becomes the links already extracted at line 205 (`sub_links`) | not executed | `Crawler.StepAsWritten`, `Crawler.RereadEmptyEndsWalk` | `Crawler.Step` |

=== FILE: base.dfy ===
/** Failure-carrying values shared by the crawler model.

    The Go program signals "nothing" with `nil` and aborts on programming
    faults with a panic; both are made explicit here. */
module Base {

  /** A value that may be absent, such as a response body that could not be fetched. */
  datatype Option<+T> = None | Some(value: T)

  /** Why the Go runtime would abort the crawler. */
  datatype Panic =
    | EmptyRange    // crypto/rand's Int was asked for a value below a bound that is not positive
    | NeverReached  // the `panic("never")` after the map walk in the random link choice

  /** Either a value or the panic that replaced it. */
  datatype Result<+T> = Ok(value: T) | Panicked(panic: Panic)
}

=== FILE: crawler.dfy ===
/** The random-walk engine (`Browse_from_links`, `Remove_and_blacklist`,
    `removeVisitedLink`, `is_Timeout_reached` and one round of `Crawl` in doc.go).

    The crawler object's mutable fields become a `CrawlState` value: the
    frontier (`links`), the growing blacklist (`Blacklisted_urls`) and the
    recursion depth. Everything the Go code gets from the outside world —
    the clock, random draws, fetched pages, the map iteration order — is
    supplied by the caller. */
module Crawler {
  import opened Base
  import opened Whitespace
  import opened UrlValidator
  import opened Filter
  import opened Links
  import opened Random

  /** `TimeOutSeconds`: how long after the start of the crawl walks are cut short. */
  const TimeOutSeconds := 10
  const NanosPerSecond := 1_000_000_000

  /** `CrawConfig`, as loaded from the configuration file (a missing or
      malformed file leaves every field at its zero value). */
  datatype Config = Config(
    maxDepth: int,
    minSleep: int,
    maxSleep: int,
    timeout: bool,
    rootUrls: seq<string>,
    blacklistedUrls: seq<string>,
    userAgents: seq<string>)

  /** The mutable part of the crawler during one walk. */
  datatype CrawlState = CrawlState(frontier: set<string>, blacklist: seq<string>, depth: nat)

  datatype StopReason = DeadEnd | DepthExceeded | TimedOut

  /** One call of `Browse_from_links` before it recurses. */
  datatype StepResult =
    | Stopped(reason: StopReason)
    | Moved(visited: string, next: CrawlState)
    | Crashed(panic: Panic)

  /** `is_Timeout_reached`: enabled, and the clock is past the start plus the timeout. */
  function IsTimeoutReached(enabled: bool, startNs: int, nowNs: int): (r: bool)
    ensures !enabled ==> !r
    ensures r ==> startNs < nowNs
    ensures enabled && nowNs > startNs + TimeOutSeconds * NanosPerSecond ==> r
    ensures r ==> nowNs > startNs + TimeOutSeconds * NanosPerSecond
  {
    enabled && nowNs > startNs + TimeOutSeconds * NanosPerSecond
  }

  /** Once the timeout is reached it stays reached. */
  lemma TimeoutStaysReached(enabled: bool, startNs: int, nowNs: int, laterNs: int)
    requires nowNs <= laterNs
    ensures IsTimeoutReached(enabled, startNs, nowNs) ==> IsTimeoutReached(enabled, startNs, laterNs)
  {
  }

  /** `After` is strict: at exactly ten seconds past the start the timeout is
      not yet reached, one nanosecond later it is (when enabled). */
  lemma TimeoutBoundary(startNs: int)
    ensures !IsTimeoutReached(true, startNs, startNs + TimeOutSeconds * NanosPerSecond)
    ensures IsTimeoutReached(true, startNs, startNs + TimeOutSeconds * NanosPerSecond + 1)
  {
  }

  /** The three early returns of `Browse_from_links`, checked in source order. */
  function StopCheck(cfg: Config, st: CrawlState, timedOut: bool): Option<StopReason> {
    if st.frontier == {} then Some(DeadEnd)
    else if st.depth > cfg.maxDepth then Some(DepthExceeded)
    else if timedOut then Some(TimedOut)
    else None
  }

  /** `Remove_and_blacklist` (with `removeVisitedLink`): the link goes to the
      end of the blacklist and out of the frontier; nothing else changes. */
  function RemoveAndBlacklist(st: CrawlState, url: string): (r: CrawlState)
    ensures url !in r.frontier && IsBlacklisted(url, r.blacklist)
    ensures forall u :: u in r.frontier <==> u in st.frontier && u != url
    ensures |r.blacklist| == |st.blacklist| + 1 && r.blacklist[..|st.blacklist|] == st.blacklist
    ensures r.blacklist[|st.blacklist|] == url
    ensures r.depth == st.depth
  {
    var r := st.(blacklist := st.blacklist + [url], frontier := st.frontier - {url});
    Strings.SubstringBasics(url);
    BlacklistedStaysRejected(url, url, st.blacklist, []);
    assert r.blacklist == st.blacklist + [url] + [];
    assert r.blacklist[..|st.blacklist|] == st.blacklist;
    r
  }

  /** The decision after a visit: more than one candidate replaces the
      frontier; otherwise the visited link is a dead end. */
  function Advance(st: CrawlState, visited: string, candidates: set<string>): CrawlState {
    if |candidates| > 1 then st.(frontier := candidates, depth := st.depth + 1)
    else RemoveAndBlacklist(st, visited).(depth := st.depth + 1)
  }

  /** One step of the walk. The oracles are the timeout flag, the map
      iteration order of the frontier with the random draw that picks from
      it, the candidate set extracted from the visited page, and the sleep
      draw. */
  function Step(cfg: Config, st: CrawlState, timedOut: bool, order: seq<string>, draw: nat,
                candidates: set<string>, sleepDraw: nat): (r: StepResult)
    requires IsEnumeration(order, st.frontier)
    ensures st.frontier == {} ==> r == Stopped(DeadEnd)
    ensures st.frontier != {} && st.depth > cfg.maxDepth ==> r == Stopped(DepthExceeded)
    ensures st.frontier != {} && st.depth <= cfg.maxDepth && timedOut ==> r == Stopped(TimedOut)
    ensures r.Crashed? <==> st.frontier != {} && st.depth <= cfg.maxDepth && !timedOut
                            && SleepPanics(cfg.minSleep, cfg.maxSleep)
    ensures r.Moved? <==> st.frontier != {} && st.depth <= cfg.maxDepth && !timedOut
                          && !SleepPanics(cfg.minSleep, cfg.maxSleep)
    ensures r.Moved? ==> r.visited in st.frontier && r.next.depth == st.depth + 1 && st.depth <= cfg.maxDepth
    ensures r.Moved? && |candidates| > 1 ==>
              r.next.frontier == candidates && r.next.blacklist == st.blacklist
    ensures r.Moved? && |candidates| <= 1 ==>
              r.next.frontier == st.frontier - {r.visited} && r.next.blacklist == st.blacklist + [r.visited]
  {
    match StopCheck(cfg, st, timedOut)
    case Some(reason) => Stopped(reason)
    case None =>
      match ChooseRandomLink(st.frontier, order, draw)
      case Panicked(p) => Crashed(p)
      case Ok(link) =>
        match SleepRandomFrom(cfg.minSleep, cfg.maxSleep, sleepDraw)
        case Panicked(p) => Crashed(p)
        case Ok(_) => Moved(link, Advance(st, link, candidates))
  }

  /** `Browse_from_links` as written at doc.go:213: after a page with more
      than one link, the frontier becomes the result of a second
      `Extract_Urls` over the same, already consumed response body. That
      second extraction is the oracle `reread`; everything else is `Step`. */
  function StepAsWritten(cfg: Config, st: CrawlState, timedOut: bool, order: seq<string>, draw: nat,
                         candidates: set<string>, reread: set<string>, sleepDraw: nat): (r: StepResult)
    requires IsEnumeration(order, st.frontier)
    ensures r.Moved? <==> Step(cfg, st, timedOut, order, draw, candidates, sleepDraw).Moved?
    ensures r.Moved? && |candidates| > 1 ==>
              r.next.frontier == reread && r.next.blacklist == st.blacklist && r.next.depth == st.depth + 1
    ensures reread == candidates ==> r == Step(cfg, st, timedOut, order, draw, candidates, sleepDraw)
  {
    match Step(cfg, st, timedOut, order, draw, candidates, sleepDraw)
    case Moved(link, next) =>
      if |candidates| > 1 then Moved(link, next.(frontier := reread)) else Moved(link, next)
    case other => other
  }

  /** When the second read of the body yields nothing (as it does for a
      scanner that reads the body to its end), a move to a page with more
      than one link leaves an empty frontier, and the next call returns at
      once as a dead end. */
  lemma RereadEmptyEndsWalk(cfg: Config, st: CrawlState, timedOut: bool, order: seq<string>, draw: nat,
                            candidates: set<string>, sleepDraw: nat,
                            laterTimedOut: bool, laterDraw: nat, laterCandidates: set<string>, laterSleepDraw: nat)
    requires IsEnumeration(order, st.frontier) && |candidates| > 1
    requires StepAsWritten(cfg, st, timedOut, order, draw, candidates, {}, sleepDraw).Moved?
    ensures var next := StepAsWritten(cfg, st, timedOut, order, draw, candidates, {}, sleepDraw).next;
      next.frontier == {} && IsEnumeration([], next.frontier)
      && Step(cfg, next, laterTimedOut, [], laterDraw, laterCandidates, laterSleepDraw) == Stopped(DeadEnd)
  {
  }

  // ---------------------------------------------------------------------
  // The recursive walk

  /** What the outside world supplies at one depth of a walk: the clock
      reading, the random draw for the link, the fetched page (`None` when
      the request failed) and the random draw for the pause. */
  datatype Draw = Draw(nowNs: int, pick: nat, page: Option<Page>, sleepPick: nat)

  /** The collaborators: the link scanner `All`, URL parsing with reference
      resolution, and the order in which a map's keys are iterated at a
      given depth. */
  datatype Env = Env(
    scan: Page -> seq<string>,
    resolve: (string, string) -> Resolution,
    iterate: (nat, set<string>) -> seq<string>)

  /** Map iteration visits every key exactly once. */
  ghost predicate Iterates(env: Env) {
    forall depth: nat, links: set<string> :: IsEnumeration(env.iterate(depth, links), links)
  }

  /** One visit: the link fetched and the candidates extracted from its page. */
  datatype Hop = Hop(visited: string, candidates: set<string>)

  datatype WalkEnd = Ended(reason: StopReason) | Aborted(panic: Panic)

  datatype WalkResult = WalkResult(final: CrawlState, hops: seq<Hop>, end: WalkEnd)

  /** The visited links of the hops that hit a dead end, in visiting order. */
  function DeadEnds(hops: seq<Hop>): seq<string>
    decreases |hops|
  {
    if |hops| == 0 then []
    else (if |hops[0].candidates| > 1 then [] else [hops[0].visited]) + DeadEnds(hops[1..])
  }

  /** How many more visits the depth limit allows from `depth`. */
  function Budget(cfg: Config, depth: nat): nat {
    if depth <= cfg.maxDepth then cfg.maxDepth + 1 - depth else 0
  }

  /** Every frontier member is a whitespace-free valid URL. */
  ghost predicate FrontierSound(frontier: set<string>) {
    forall u :: u in frontier ==> IsValidUrl(u) && WhiteSpaceFree(u)
  }

  /** Whether the clock reading of the draw at this depth is past the timeout. */
  function TimedOutAt(cfg: Config, startNs: int, st: CrawlState, draws: nat -> Draw): bool {
    IsTimeoutReached(cfg.timeout, startNs, draws(st.depth).nowNs)
  }

  /** The links extracted from the page visited at this depth (none when the walk stops here). */
  function CandidatesAt(cfg: Config, env: Env, startNs: int, st: CrawlState, draws: nat -> Draw): (r: set<string>)
    requires Iterates(env)
    ensures forall u :: u in r ==> ShouldAcceptUrl(u, st.blacklist) && WhiteSpaceFree(u)
  {
    var d := draws(st.depth);
    if StopCheck(cfg, st, TimedOutAt(cfg, startNs, st, draws)).Some? then {}
    else match ChooseRandomLink(st.frontier, env.iterate(st.depth, st.frontier), d.pick)
         case Ok(link) => ExtractUrls(d.page, link, st.blacklist, env.scan, env.resolve)
         case Panicked(_) => {}
  }

  /** The step taken at this depth, with the draws of this depth. */
  function StepAt(cfg: Config, env: Env, startNs: int, st: CrawlState, draws: nat -> Draw): StepResult
    requires Iterates(env)
  {
    var d := draws(st.depth);
    Step(cfg, st, TimedOutAt(cfg, startNs, st, draws), env.iterate(st.depth, st.frontier), d.pick,
         CandidatesAt(cfg, env, startNs, st, draws), d.sleepPick)
  }

  /** What a move does to the state, in terms of the links extracted at this depth. */
  lemma MovedAt(cfg: Config, env: Env, startNs: int, st: CrawlState, draws: nat -> Draw,
                link: string, next: CrawlState)
    requires Iterates(env) && StepAt(cfg, env, startNs, st, draws) == Moved(link, next)
    ensures link in st.frontier
    ensures next.depth == st.depth + 1 && Budget(cfg, next.depth) < Budget(cfg, st.depth)
    ensures next.blacklist == st.blacklist
              + (if |CandidatesAt(cfg, env, startNs, st, draws)| > 1 then [] else [link])
  {
    var d := draws(st.depth);
    var s := Step(cfg, st, TimedOutAt(cfg, startNs, st, draws), env.iterate(st.depth, st.frontier), d.pick,
                  CandidatesAt(cfg, env, startNs, st, draws), d.sleepPick);
    assert s == Moved(link, next);
  }

  /** The candidates of a move are the links of the page fetched at this
      depth, resolved against the visited link and filtered by the current
      blacklist (`Extract_Urls(subpage, random_link)`). */
  lemma MovedCandidates(cfg: Config, env: Env, startNs: int, st: CrawlState, draws: nat -> Draw,
                        link: string, next: CrawlState)
    requires Iterates(env) && StepAt(cfg, env, startNs, st, draws) == Moved(link, next)
    ensures CandidatesAt(cfg, env, startNs, st, draws)
              == ExtractUrls(draws(st.depth).page, link, st.blacklist, env.scan, env.resolve)
  {
    var d := draws(st.depth);
    var timedOut := TimedOutAt(cfg, startNs, st, draws);
    var order := env.iterate(st.depth, st.frontier);
    var s := Step(cfg, st, timedOut, order, d.pick, CandidatesAt(cfg, env, startNs, st, draws), d.sleepPick);
    assert s == Moved(link, next);
    assert StopCheck(cfg, st, timedOut).None?;
    assert ChooseRandomLink(st.frontier, order, d.pick) == Ok(link);
  }

  /** The dead ends of a walk with one more hop in front. */
  lemma ConsDeadEnds(h: Hop, hops: seq<Hop>, before: seq<string>, after: seq<string>)
    requires after == before + (if |h.candidates| > 1 then [] else [h.visited])
    ensures after + DeadEnds(hops) == before + DeadEnds([h] + hops)
  {
    var all := [h] + hops;
    assert all[1..] == hops;
  }

  /** `Browse_from_links(depth)`, run to its end. Each recursive call is one
      level deeper, so the walk ends after at most `Budget` visits, and the
      blacklist grows by exactly the links that turned out to be dead ends. */
  function Walk(cfg: Config, env: Env, startNs: int, st: CrawlState, draws: nat -> Draw): (r: WalkResult)
    requires Iterates(env)
    ensures r.final.blacklist == st.blacklist + DeadEnds(r.hops)
    ensures r.final.depth == st.depth + |r.hops|
    ensures |r.hops| <= Budget(cfg, st.depth)
    ensures r.hops == [] ==> r.final == st
    ensures r.hops != [] ==> r.hops[0].visited in st.frontier
    decreases Budget(cfg, st.depth)
  {
    match StepAt(cfg, env, startNs, st, draws)
    case Stopped(reason) => WalkResult(st, [], Ended(reason))
    case Crashed(p) => WalkResult(st, [], Aborted(p))
    case Moved(link, next) =>
      MovedAt(cfg, env, startNs, st, draws, link, next);
      var rest := Walk(cfg, env, startNs, next, draws);
      var hop := Hop(link, CandidatesAt(cfg, env, startNs, st, draws));
      ConsDeadEnds(hop, rest.hops, st.blacklist, next.blacklist);
      WalkResult(rest.final, [hop] + rest.hops, rest.end)
  }

  // ---------------------------------------------------------------------
  // Properties of the walk

  /** With an empty frontier the walk ends at once, fetching nothing. */
  lemma WalkEmptyFrontier(cfg: Config, env: Env, startNs: int, st: CrawlState, draws: nat -> Draw)
    requires Iterates(env) && st.frontier == {}
    ensures Walk(cfg, env, startNs, st, draws) == WalkResult(st, [], Ended(DeadEnd))
  {
  }

  /** The end of a walk is accounted for: at the depth limit after exactly
      the allowed number of visits; on a timeout only when timeouts are
      enabled; on a dead end with an empty frontier, reached either at once
      or by a last visit that yielded at most one link; by a panic only
      when the sleep settings are inconsistent. */
  ghost predicate EndExplained(cfg: Config, st: CrawlState, r: WalkResult) {
    && (r.end == Ended(DepthExceeded) ==> |r.hops| == Budget(cfg, st.depth))
    && (r.end == Ended(TimedOut) ==> cfg.timeout)
    && (r.end == Ended(DeadEnd) ==>
          r.final.frontier == {} && (r.hops == [] || |r.hops[|r.hops| - 1].candidates| <= 1))
    && (r.end.Aborted? ==> SleepPanics(cfg.minSleep, cfg.maxSleep))
  }

  /** Prepending the hop of a move to an accounted-for walk from the next
      state gives an accounted-for walk from this one. */
  lemma ConsEndExplained(cfg: Config, st: CrawlState, next: CrawlState, h: Hop, rest: WalkResult)
    requires EndExplained(cfg, next, rest) && (rest.hops == [] ==> rest.final == next)
    requires next.depth == st.depth + 1 && st.depth <= cfg.maxDepth
    requires |h.candidates| > 1 ==> next.frontier == h.candidates
    ensures EndExplained(cfg, st, WalkResult(rest.final, [h] + rest.hops, rest.end))
  {
    var r := WalkResult(rest.final, [h] + rest.hops, rest.end);
    if r.end == Ended(DeadEnd) && rest.hops == [] {
      assert rest.final == next;
      assert |h.candidates| <= 1;
    }
  }

  /** Every walk's end is accounted for. */
  lemma {:induction false} WalkEndReasons(cfg: Config, env: Env, startNs: int, st: CrawlState, draws: nat -> Draw)
    requires Iterates(env)
    ensures EndExplained(cfg, st, Walk(cfg, env, startNs, st, draws))
    decreases Budget(cfg, st.depth)
  {
    match StepAt(cfg, env, startNs, st, draws)
    case Stopped(reason) =>
    case Crashed(p) =>
    case Moved(link, next) =>
      WalkEndReasons(cfg, env, startNs, next, draws);
      WalkUnfold(cfg, env, startNs, st, draws, link, next);
      ConsEndExplained(cfg, st, next, Hop(link, CandidatesAt(cfg, env, startNs, st, draws)),
                       Walk(cfg, env, startNs, next, draws));
  }

  /** The decision of the last `Browse_from_links` call of a walk: the step
      taken in the final state stops for the walk's reason, or crashes with
      its panic. */
  ghost predicate EndsAtFinal(cfg: Config, env: Env, startNs: int, draws: nat -> Draw, r: WalkResult)
    requires Iterates(env)
  {
    && (r.end.Ended? ==> StepAt(cfg, env, startNs, r.final, draws) == Stopped(r.end.reason))
    && (r.end.Aborted? ==> StepAt(cfg, env, startNs, r.final, draws) == Crashed(r.end.panic))
  }

  /** Every walk ends with the decision of the step in its final state. */
  lemma {:induction false} WalkEndsAtFinal(cfg: Config, env: Env, startNs: int, st: CrawlState, draws: nat -> Draw)
    requires Iterates(env)
    ensures EndsAtFinal(cfg, env, startNs, draws, Walk(cfg, env, startNs, st, draws))
    decreases Budget(cfg, st.depth)
  {
    match StepAt(cfg, env, startNs, st, draws)
    case Stopped(reason) =>
    case Crashed(p) =>
    case Moved(link, next) =>
      MovedAt(cfg, env, startNs, st, draws, link, next);
      WalkEndsAtFinal(cfg, env, startNs, next, draws);
      WalkUnfold(cfg, env, startNs, st, draws, link, next);
  }

  /** The end of a walk, in the terms of the checks at doc.go:180-197 made
      in the final state: a timeout end has a non-empty frontier, a depth
      within the limit and a clock reading past start plus ten seconds with
      timeouts enabled; a depth-limit end has a non-empty frontier and a
      depth past the limit; a dead end has an empty frontier; a panic
      passes all three checks with inconsistent sleep settings. */
  lemma WalkEndConditions(cfg: Config, env: Env, startNs: int, st: CrawlState, draws: nat -> Draw)
    requires Iterates(env)
    ensures var r := Walk(cfg, env, startNs, st, draws);
      && (r.end == Ended(TimedOut) ==>
            r.final.frontier != {} && r.final.depth <= cfg.maxDepth && cfg.timeout
            && draws(r.final.depth).nowNs > startNs + TimeOutSeconds * NanosPerSecond)
      && (r.end == Ended(DepthExceeded) ==> r.final.frontier != {} && r.final.depth > cfg.maxDepth)
      && (r.end == Ended(DeadEnd) ==> r.final.frontier == {})
      && (r.end.Aborted? ==>
            r.final.frontier != {} && r.final.depth <= cfg.maxDepth
            && !TimedOutAt(cfg, startNs, r.final, draws) && SleepPanics(cfg.minSleep, cfg.maxSleep))
  {
    var r := Walk(cfg, env, startNs, st, draws);
    WalkEndsAtFinal(cfg, env, startNs, st, draws);
    StepDecision(cfg, env, startNs, r.final, draws);
  }

  /** What a stop or a crash of one step says about the state it was taken in. */
  lemma StepDecision(cfg: Config, env: Env, startNs: int, st: CrawlState, draws: nat -> Draw)
    requires Iterates(env)
    ensures var s := StepAt(cfg, env, startNs, st, draws);
      && (s == Stopped(TimedOut) ==>
            st.frontier != {} && st.depth <= cfg.maxDepth && cfg.timeout
            && draws(st.depth).nowNs > startNs + TimeOutSeconds * NanosPerSecond)
      && (s == Stopped(DepthExceeded) ==> st.frontier != {} && st.depth > cfg.maxDepth)
      && (s == Stopped(DeadEnd) ==> st.frontier == {})
      && (s.Crashed? ==>
            st.frontier != {} && st.depth <= cfg.maxDepth
            && !TimedOutAt(cfg, startNs, st, draws) && SleepPanics(cfg.minSleep, cfg.maxSleep))
  {
    var d := draws(st.depth);
    var timedOut := TimedOutAt(cfg, startNs, st, draws);
    var s := Step(cfg, st, timedOut, env.iterate(st.depth, st.frontier), d.pick,
                  CandidatesAt(cfg, env, startNs, st, draws), d.sleepPick);
    assert s == StepAt(cfg, env, startNs, st, draws);
  }

  /** Every visit of the walk yielded at least two links. */
  ghost predicate NoPoorPages(hops: seq<Hop>) {
    forall k :: 0 <= k < |hops| ==> 2 <= |hops[k].candidates|
  }

  /** An accounted-for end without timeouts, panics or poor pages is the depth limit. */
  lemma EndWithoutDeadEnds(cfg: Config, st: CrawlState, r: WalkResult)
    requires EndExplained(cfg, st, r) && (r.hops == [] ==> r.final == st)
    requires st.frontier != {} && !cfg.timeout && !SleepPanics(cfg.minSleep, cfg.maxSleep)
    requires NoPoorPages(r.hops)
    ensures r.end == Ended(DepthExceeded) && |r.hops| == Budget(cfg, st.depth)
  {
    if r.hops == [] {
      assert r.final.frontier != {};
    } else {
      assert 2 <= |r.hops[|r.hops| - 1].candidates|;
    }
    assert r.end.reason != DeadEnd && r.end.reason != TimedOut;
  }

  /** A walk whose every visit yields at least two links, with timeouts off
      and consistent sleep settings, runs exactly to the depth limit:
      `Max_depth + 1` visits when started at depth 0. */
  lemma WalkReachesDepthLimit(cfg: Config, env: Env, startNs: int, st: CrawlState, draws: nat -> Draw)
    requires Iterates(env)
    requires st.frontier != {} && !cfg.timeout && !SleepPanics(cfg.minSleep, cfg.maxSleep)
    requires NoPoorPages(Walk(cfg, env, startNs, st, draws).hops)
    ensures Walk(cfg, env, startNs, st, draws).end == Ended(DepthExceeded)
    ensures |Walk(cfg, env, startNs, st, draws).hops| == Budget(cfg, st.depth)
  {
    var r := Walk(cfg, env, startNs, st, draws);
    WalkEndReasons(cfg, env, startNs, st, draws);
    EndWithoutDeadEnds(cfg, st, r);
  }

  /** Every visited link is a valid URL. */
  ghost predicate VisitsValid(hops: seq<Hop>) {
    forall k :: 0 <= k < |hops| ==> IsValidUrl(hops[k].visited)
  }

  lemma ConsVisitsValid(h: Hop, hops: seq<Hop>)
    requires IsValidUrl(h.visited) && VisitsValid(hops)
    ensures VisitsValid([h] + hops)
  {
    var all := [h] + hops;
    assert forall k :: 0 < k < |all| ==> all[k] == hops[k - 1];
  }

  /** Frontier soundness is kept by every walk, so every link a walk visits
      is a valid URL. */
  lemma {:induction false} WalkSound(cfg: Config, env: Env, startNs: int, st: CrawlState, draws: nat -> Draw)
    requires Iterates(env) && FrontierSound(st.frontier)
    ensures var r := Walk(cfg, env, startNs, st, draws);
      FrontierSound(r.final.frontier) && VisitsValid(r.hops)
    decreases Budget(cfg, st.depth)
  {
    match StepAt(cfg, env, startNs, st, draws)
    case Stopped(reason) =>
    case Crashed(p) =>
    case Moved(link, next) =>
      assert FrontierSound(next.frontier);
      WalkSound(cfg, env, startNs, next, draws);
      WalkUnfold(cfg, env, startNs, st, draws, link, next);
      ConsVisitsValid(Hop(link, CandidatesAt(cfg, env, startNs, st, draws)),
                      Walk(cfg, env, startNs, next, draws).hops);
  }

  /** No frontier member is itself an entry of the blacklist. */
  ghost predicate DisjointFromBlacklist(st: CrawlState) {
    forall u :: u in st.frontier ==> u !in st.blacklist
  }

  /** No hop visits an entry of `blacklist`. */
  ghost predicate AvoidsBlacklist(hops: seq<Hop>, blacklist: seq<string>) {
    forall k :: 0 <= k < |hops| ==> hops[k].visited !in blacklist
  }

  /** No link is visited after the hop where it turned out to be a dead end. */
  ghost predicate NoDeadEndRevisited(hops: seq<Hop>) {
    forall k, m :: 0 <= k < m < |hops| && |hops[k].candidates| <= 1 ==> hops[m].visited != hops[k].visited
  }

  /** A walk that moves is that move followed by the walk from the next state. */
  lemma WalkUnfold(cfg: Config, env: Env, startNs: int, st: CrawlState, draws: nat -> Draw,
                   link: string, next: CrawlState)
    requires Iterates(env) && StepAt(cfg, env, startNs, st, draws) == Moved(link, next)
    ensures var rest := Walk(cfg, env, startNs, next, draws);
      Walk(cfg, env, startNs, st, draws)
        == WalkResult(rest.final, [Hop(link, CandidatesAt(cfg, env, startNs, st, draws))] + rest.hops, rest.end)
  {
  }

  /** Prepending a hop keeps both properties, given what the step did to the blacklist. */
  lemma ConsHop(h: Hop, hops: seq<Hop>, blacklist: seq<string>, next: seq<string>)
    requires h.visited !in blacklist
    requires next == blacklist + (if |h.candidates| > 1 then [] else [h.visited])
    requires AvoidsBlacklist(hops, next) && NoDeadEndRevisited(hops)
    ensures AvoidsBlacklist([h] + hops, blacklist) && NoDeadEndRevisited([h] + hops)
  {
    var all := [h] + hops;
    assert forall k :: 0 < k < |all| ==> all[k] == hops[k - 1];
    assert forall x :: x in blacklist ==> x in next;
  }

  /** A move visits a link off the blacklist and keeps the frontier disjoint from it. */
  lemma MoveKeepsDisjoint(cfg: Config, env: Env, startNs: int, st: CrawlState, draws: nat -> Draw,
                          link: string, next: CrawlState)
    requires Iterates(env) && StepAt(cfg, env, startNs, st, draws) == Moved(link, next)
    requires DisjointFromBlacklist(st)
    ensures link !in st.blacklist && DisjointFromBlacklist(next)
  {
    var d := draws(st.depth);
    var s := Step(cfg, st, TimedOutAt(cfg, startNs, st, draws), env.iterate(st.depth, st.frontier), d.pick,
                  CandidatesAt(cfg, env, startNs, st, draws), d.sleepPick);
    assert s == Moved(link, next);
  }

  /** Given a frontier disjoint from the blacklist (as every extraction
      leaves it), a walk never fetches a blacklisted entry, and a link that
      turned out to be a dead end is never visited again. */
  lemma {:induction false} WalkNeverRevisitsDeadEnds(cfg: Config, env: Env, startNs: int, st: CrawlState,
                                                     draws: nat -> Draw)
    requires Iterates(env) && DisjointFromBlacklist(st)
    ensures var r := Walk(cfg, env, startNs, st, draws);
      AvoidsBlacklist(r.hops, st.blacklist) && NoDeadEndRevisited(r.hops)
    decreases Budget(cfg, st.depth)
  {
    match StepAt(cfg, env, startNs, st, draws)
    case Stopped(reason) =>
    case Crashed(p) =>
    case Moved(link, next) =>
      MovedAt(cfg, env, startNs, st, draws, link, next);
      MoveKeepsDisjoint(cfg, env, startNs, st, draws, link, next);
      WalkNeverRevisitsDeadEnds(cfg, env, startNs, next, draws);
      WalkUnfold(cfg, env, startNs, st, draws, link, next);
      var rest := Walk(cfg, env, startNs, next, draws);
      ConsHop(Hop(link, CandidatesAt(cfg, env, startNs, st, draws)), rest.hops, st.blacklist, next.blacklist);
  }

  /** Each hop's candidates stand in relation `links` to the depth of that
      hop, its visited link and the blacklist as it stood at that visit: the
      starting one followed by the dead ends found before it. */
  ghost predicate HopsFollow(links: (nat, string, seq<string>, set<string>) -> bool, depth: nat,
                             blacklist: seq<string>, hops: seq<Hop>)
  {
    forall k :: 0 <= k < |hops| ==>
      links(depth + k, hops[k].visited, blacklist + DeadEnds(hops[..k]), hops[k].candidates)
  }

  /** Prepending a hop that follows `links` keeps `HopsFollow`, the rest
      being one level deeper and under the blacklist the hop left behind. */
  lemma ConsFollows(links: (nat, string, seq<string>, set<string>) -> bool, depth: nat, blacklist: seq<string>,
                    h: Hop, hops: seq<Hop>, nextDepth: nat, nextBlacklist: seq<string>)
    requires nextDepth == depth + 1
    requires nextBlacklist == blacklist + (if |h.candidates| > 1 then [] else [h.visited])
    requires links(depth, h.visited, blacklist, h.candidates) && HopsFollow(links, nextDepth, nextBlacklist, hops)
    ensures HopsFollow(links, depth, blacklist, [h] + hops)
  {
    var all := [h] + hops;
    forall k | 0 <= k < |all|
      ensures links(depth + k, all[k].visited, blacklist + DeadEnds(all[..k]), all[k].candidates)
    {
      if k == 0 {
        assert all[..0] == [];
        assert blacklist + DeadEnds(all[..0]) == blacklist;
      } else {
        assert all[k] == hops[k - 1];
        assert all[..k] == [h] + hops[..k - 1];
        ConsDeadEnds(h, hops[..k - 1], blacklist, nextBlacklist);
      }
    }
  }

  /** Whether every move's candidates stand in relation `links` to its depth,
      visited link and blacklist. */
  ghost predicate MovesFollow(cfg: Config, env: Env, startNs: int, draws: nat -> Draw,
                              links: (nat, string, seq<string>, set<string>) -> bool)
    requires Iterates(env)
  {
    forall s: CrawlState :: StepAt(cfg, env, startNs, s, draws).Moved? ==>
      links(s.depth, StepAt(cfg, env, startNs, s, draws).visited, s.blacklist, CandidatesAt(cfg, env, startNs, s, draws))
  }

  /** A move that follows `links`, in front of hops that follow it from the next state. */
  lemma MoveFollows(cfg: Config, env: Env, startNs: int, st: CrawlState, draws: nat -> Draw,
                    links: (nat, string, seq<string>, set<string>) -> bool, link: string, next: CrawlState,
                    rest: seq<Hop>)
    requires Iterates(env) && StepAt(cfg, env, startNs, st, draws) == Moved(link, next)
    requires links(st.depth, link, st.blacklist, CandidatesAt(cfg, env, startNs, st, draws))
    requires HopsFollow(links, next.depth, next.blacklist, rest)
    ensures HopsFollow(links, st.depth, st.blacklist, [Hop(link, CandidatesAt(cfg, env, startNs, st, draws))] + rest)
  {
    MovedAt(cfg, env, startNs, st, draws, link, next);
    var h := Hop(link, CandidatesAt(cfg, env, startNs, st, draws));
    ConsFollows(links, st.depth, st.blacklist, h, rest, next.depth, next.blacklist);
  }

  /** What holds of every single move holds of every hop of a walk. */
  lemma {:induction false} WalkFollows(cfg: Config, env: Env, startNs: int, st: CrawlState, draws: nat -> Draw,
                                       links: (nat, string, seq<string>, set<string>) -> bool)
    requires Iterates(env) && MovesFollow(cfg, env, startNs, draws, links)
    ensures HopsFollow(links, st.depth, st.blacklist, Walk(cfg, env, startNs, st, draws).hops)
    decreases Budget(cfg, st.depth)
  {
    match StepAt(cfg, env, startNs, st, draws)
    case Stopped(reason) =>
    case Crashed(p) =>
    case Moved(link, next) =>
      MovedAt(cfg, env, startNs, st, draws, link, next);
      WalkFollows(cfg, env, startNs, next, draws, links);
      MoveFollows(cfg, env, startNs, st, draws, links, link, next, Walk(cfg, env, startNs, next, draws).hops);
      WalkUnfold(cfg, env, startNs, st, draws, link, next);
  }

  /** Whether `candidates` are the links of the page fetched at `depth`,
      resolved against `base` and filtered by `blacklist`. */
  function FromPage(env: Env, draws: nat -> Draw): (nat, string, seq<string>, set<string>) -> bool {
    (depth: nat, base: string, blacklist: seq<string>, candidates: set<string>) =>
      candidates == ExtractUrls(draws(depth).page, base, blacklist, env.scan, env.resolve)
  }

  /** Every move extracts the page fetched at its depth. */
  lemma MovesFollowPages(cfg: Config, env: Env, startNs: int, draws: nat -> Draw)
    requires Iterates(env)
    ensures MovesFollow(cfg, env, startNs, draws, FromPage(env, draws))
  {
    forall s: CrawlState | StepAt(cfg, env, startNs, s, draws).Moved?
      ensures FromPage(env, draws)(s.depth, StepAt(cfg, env, startNs, s, draws).visited, s.blacklist,
                                   CandidatesAt(cfg, env, startNs, s, draws))
    {
      var step := StepAt(cfg, env, startNs, s, draws);
      MovedCandidates(cfg, env, startNs, s, draws, step.visited, step.next);
    }
  }

  /** Every hop's candidates are the links of the page fetched at its own
      depth, resolved against the visited link (the base that makes a
      relative link absolute) and filtered by the blacklist as it stood at
      that visit: the starting list followed by the dead ends found so far. */
  lemma WalkHopsFromPages(cfg: Config, env: Env, startNs: int, st: CrawlState, draws: nat -> Draw)
    requires Iterates(env)
    ensures var r := Walk(cfg, env, startNs, st, draws);
      forall k :: 0 <= k < |r.hops| ==>
        r.hops[k].candidates
          == ExtractUrls(draws(st.depth + k).page, r.hops[k].visited, st.blacklist + DeadEnds(r.hops[..k]),
                         env.scan, env.resolve)
  {
    MovesFollowPages(cfg, env, startNs, draws);
    WalkFollows(cfg, env, startNs, st, draws, FromPage(env, draws));
  }

  /** No frontier member contains an entry of `blacklist` as a substring. */
  ghost predicate FrontierClear(frontier: set<string>, blacklist: seq<string>) {
    forall u :: u in frontier ==> !IsBlacklisted(u, blacklist)
  }

  /** No hop visits a link that contains an entry of `blacklist`. */
  ghost predicate VisitsClear(hops: seq<Hop>, blacklist: seq<string>) {
    forall k :: 0 <= k < |hops| ==> !IsBlacklisted(hops[k].visited, blacklist)
  }

  lemma ConsVisitsClear(h: Hop, hops: seq<Hop>, blacklist: seq<string>)
    requires !IsBlacklisted(h.visited, blacklist) && VisitsClear(hops, blacklist)
    ensures VisitsClear([h] + hops, blacklist)
  {
    var all := [h] + hops;
    assert forall k :: 0 < k < |all| ==> all[k] == hops[k - 1];
  }

  /** A move keeps the frontier clear of an earlier part `base` of the blacklist. */
  lemma MoveKeepsClear(cfg: Config, env: Env, startNs: int, st: CrawlState, draws: nat -> Draw,
                       link: string, next: CrawlState, base: seq<string>, more: seq<string>)
    requires Iterates(env) && StepAt(cfg, env, startNs, st, draws) == Moved(link, next)
    requires st.blacklist == base + more && FrontierClear(st.frontier, base)
    ensures !IsBlacklisted(link, base) && FrontierClear(next.frontier, base)
    ensures next.blacklist == base + (more + (if |CandidatesAt(cfg, env, startNs, st, draws)| > 1 then [] else [link]))
  {
    var d := draws(st.depth);
    var cands := CandidatesAt(cfg, env, startNs, st, draws);
    var s := Step(cfg, st, TimedOutAt(cfg, startNs, st, draws), env.iterate(st.depth, st.frontier), d.pick,
                  cands, d.sleepPick);
    assert s == Moved(link, next);
    forall u | u in cands ensures !IsBlacklisted(u, base) {
      BlacklistMonotone(u, base, more);
    }
  }

  /** Substring filtering carries over to the walk: from a frontier in which
      no link contains an entry of the starting blacklist, no visit does
      either, however many dead ends are appended on the way. A link that
      contains a dead end found earlier in the same walk can still be
      visited: only the frontier built later is filtered against it. */
  lemma {:induction false} WalkVisitsClear(cfg: Config, env: Env, startNs: int, st: CrawlState, draws: nat -> Draw,
                                           base: seq<string>, more: seq<string>)
    requires Iterates(env) && st.blacklist == base + more && FrontierClear(st.frontier, base)
    ensures VisitsClear(Walk(cfg, env, startNs, st, draws).hops, base)
    decreases Budget(cfg, st.depth)
  {
    match StepAt(cfg, env, startNs, st, draws)
    case Stopped(reason) =>
    case Crashed(p) =>
    case Moved(link, next) =>
      MovedAt(cfg, env, startNs, st, draws, link, next);
      MoveKeepsClear(cfg, env, startNs, st, draws, link, next, base, more);
      var more' := more + (if |CandidatesAt(cfg, env, startNs, st, draws)| > 1 then [] else [link]);
      WalkVisitsClear(cfg, env, startNs, next, draws, base, more');
      WalkUnfold(cfg, env, startNs, st, draws, link, next);
      var rest := Walk(cfg, env, startNs, next, draws);
      ConsVisitsClear(Hop(link, CandidatesAt(cfg, env, startNs, st, draws)), rest.hops, base);
  }

  // ---------------------------------------------------------------------
  // One round of the crawl loop

  /** One iteration of the endless loop in `Crawl`: pick a root at random,
      build the frontier from its page, and walk from depth 0. */
  datatype Round = Round(root: string, walk: WalkResult) | RootPanic(panic: Panic)

  /** The blacklist carried in is whatever earlier rounds left behind; the
      start time is the one taken when the crawl began. */
  function CrawlRound(cfg: Config, env: Env, startNs: int, blacklist: seq<string>,
                      rootPick: nat, rootPage: Option<Page>, draws: nat -> Draw): (r: Round)
    requires Iterates(env)
    ensures r.RootPanic? <==> |cfg.rootUrls| == 0
    ensures r.Round? ==> r.root in cfg.rootUrls
    ensures r.Round? ==> |r.walk.hops| <= Budget(cfg, 0)
    ensures r.Round? ==> r.walk.final.blacklist == blacklist + DeadEnds(r.walk.hops)
    ensures r.Round? && r.walk.hops != [] ==>
      r.walk.hops[0].visited in ExtractUrls(rootPage, r.root, blacklist, env.scan, env.resolve)
    ensures r.Round? && ExtractUrls(rootPage, r.root, blacklist, env.scan, env.resolve) == {} ==>
      r.walk == WalkResult(CrawlState({}, blacklist, 0), [], Ended(DeadEnd))
  {
    match CryptRandom(0, |cfg.rootUrls|, rootPick)
    case Panicked(p) => RootPanic(p)
    case Ok(i) =>
      var root := cfg.rootUrls[i];
      var links := ExtractUrls(rootPage, root, blacklist, env.scan, env.resolve);
      var st := CrawlState(links, blacklist, 0);
      assert links == {} ==> Walk(cfg, env, startNs, st, draws) == WalkResult(st, [], Ended(DeadEnd)) by {
        if links == {} {
          WalkEmptyFrontier(cfg, env, startNs, st, draws);
        }
      }
      Round(root, Walk(cfg, env, startNs, st, draws))
  }

  /** The first round of `Crawl` starts from the configured blacklist
      (`Blacklisted_urls`); later rounds continue from the list the previous
      round left behind. */
  function FirstRound(cfg: Config, env: Env, startNs: int, rootPick: nat, rootPage: Option<Page>,
                      draws: nat -> Draw): (r: Round)
    requires Iterates(env)
    ensures r.RootPanic? <==> |cfg.rootUrls| == 0
    ensures r.Round? ==> r.walk.final.blacklist == cfg.blacklistedUrls + DeadEnds(r.walk.hops)
  {
    CrawlRound(cfg, env, startNs, cfg.blacklistedUrls, rootPick, rootPage, draws)
  }

  /** The links extracted from the root page form a frontier every walk
      lemma can start from. */
  lemma ExtractionStartsClean(rootPage: Option<Page>, root: string, blacklist: seq<string>,
                              scan: Page -> seq<string>, resolve: (string, string) -> Resolution)
    ensures var links := ExtractUrls(rootPage, root, blacklist, scan, resolve);
      && FrontierSound(links)
      && DisjointFromBlacklist(CrawlState(links, blacklist, 0))
      && FrontierClear(links, blacklist)
  {
  }

  /** A walk from such a frontier visits only valid URLs off the blacklist
      it started with, and no dead end twice. */
  lemma CleanStartVisits(cfg: Config, env: Env, startNs: int, st: CrawlState, draws: nat -> Draw)
    requires Iterates(env) && FrontierSound(st.frontier) && DisjointFromBlacklist(st)
    requires FrontierClear(st.frontier, st.blacklist)
    ensures var hops := Walk(cfg, env, startNs, st, draws).hops;
      && VisitsValid(hops) && AvoidsBlacklist(hops, st.blacklist) && VisitsClear(hops, st.blacklist)
      && NoDeadEndRevisited(hops)
  {
    WalkSound(cfg, env, startNs, st, draws);
    WalkNeverRevisitsDeadEnds(cfg, env, startNs, st, draws);
    assert st.blacklist + [] == st.blacklist;
    WalkVisitsClear(cfg, env, startNs, st, draws, st.blacklist, []);
  }

  /** Every link a round visits is a valid URL that neither is nor contains
      an entry of the blacklist the round started with, and no dead-end link
      is visited twice. */
  lemma CrawlRoundVisits(cfg: Config, env: Env, startNs: int, blacklist: seq<string>,
                         rootPick: nat, rootPage: Option<Page>, draws: nat -> Draw)
    requires Iterates(env)
    ensures var r := CrawlRound(cfg, env, startNs, blacklist, rootPick, rootPage, draws);
      r.Round? ==>
        && (forall k :: 0 <= k < |r.walk.hops| ==>
              && IsValidUrl(r.walk.hops[k].visited) && r.walk.hops[k].visited !in blacklist
              && !IsBlacklisted(r.walk.hops[k].visited, blacklist))
        && (forall k, m :: 0 <= k < m < |r.walk.hops| && |r.walk.hops[k].candidates| <= 1 ==>
              r.walk.hops[m].visited != r.walk.hops[k].visited)
  {
    if |cfg.rootUrls| > 0 {
      var i := CryptRandom(0, |cfg.rootUrls|, rootPick).value;
      var links := ExtractUrls(rootPage, cfg.rootUrls[i], blacklist, env.scan, env.resolve);
      var st := CrawlState(links, blacklist, 0);
      ExtractionStartsClean(rootPage, cfg.rootUrls[i], blacklist, env.scan, env.resolve);
      CleanStartVisits(cfg, env, startNs, st, draws);
    }
  }
}

=== FILE: filter.dfy ===
/** The acceptance filter applied to every extracted link
    (`Is_Blacklisted` and `Should_accept_url` in doc.go). */
module Filter {
  import opened Strings
  import opened UrlValidator

  /** Reference definition: some entry of the blacklist occurs in `url`. */
  ghost predicate HasBlacklistedPart(url: string, blacklist: seq<string>) {
    exists e :: e in blacklist && IsSubstring(e, url)
  }

  /** `Is_Blacklisted`: the entries are tried in order, and the first one
      contained in `url` answers true. */
  function IsBlacklisted(url: string, blacklist: seq<string>): (r: bool)
    ensures r <==> HasBlacklistedPart(url, blacklist)
    decreases |blacklist|
  {
    if |blacklist| == 0 then false
    else
      ContainsIsSubstring(url, blacklist[0]);
      Contains(url, blacklist[0]) || IsBlacklisted(url, blacklist[1..])
  }

  /** `Should_accept_url`: non-empty, a valid URL, and not blacklisted. */
  function ShouldAcceptUrl(url: string, blacklist: seq<string>): (r: bool)
    ensures r <==> 0 < |url| && MatchesSomewhere(url) && !HasBlacklistedPart(url, blacklist)
    ensures r ==> IsValidUrl(url) && url !in blacklist
  {
    SubstringBasics(url);
    IsValidUrlMatches(url);
    if |url| == 0 then false
    else if !IsValidUrl(url) then false
    else if IsBlacklisted(url, blacklist) then false
    else true
  }

  /** The emptiness test is subsumed by validity: every valid URL has at least
      eight characters. */
  lemma EmptinessCheckRedundant(url: string, blacklist: seq<string>)
    ensures ShouldAcceptUrl(url, blacklist) <==> IsValidUrl(url) && !IsBlacklisted(url, blacklist)
  {
    AcceptedHasSeparator(url);
  }

  /** An empty blacklist rejects nothing; an empty entry rejects everything. */
  lemma BlacklistEdges(url: string, blacklist: seq<string>)
    ensures !IsBlacklisted(url, [])
    ensures "" in blacklist ==> IsBlacklisted(url, blacklist)
  {
    SubstringBasics(url);
  }

  /** Growing the blacklist never un-blacklists a URL. */
  lemma BlacklistMonotone(url: string, blacklist: seq<string>, more: seq<string>)
    ensures IsBlacklisted(url, blacklist) ==> IsBlacklisted(url, blacklist + more)
    ensures ShouldAcceptUrl(url, blacklist + more) ==> ShouldAcceptUrl(url, blacklist)
  {
    if IsBlacklisted(url, blacklist) {
      var e :| e in blacklist && IsSubstring(e, url);
      assert e in blacklist + more;
    }
  }

  /** Once `entry` is on the blacklist, no URL containing it, `entry` itself
      included, is accepted again however the blacklist grows afterwards. */
  lemma BlacklistedStaysRejected(url: string, entry: string, before: seq<string>, after: seq<string>)
    requires IsSubstring(entry, url)
    ensures IsBlacklisted(url, before + [entry] + after)
    ensures !ShouldAcceptUrl(url, before + [entry] + after)
  {
    assert entry in before + [entry] + after;
  }

  /** Blacklisting is by substring, not by equality: the entry `ads.` rejects
      a host name and a file name alike. */
  lemma SubstringSemantics(url: string)
    requires url == "http://ads.example.com/x" || url == "http://x.com/ads.js"
    ensures IsBlacklisted(url, ["ads."])
  {
    if url == "http://ads.example.com/x" {
      assert url[7..11] == "ads.";
      assert OccursAt("ads.", url, 7);
    } else {
      assert url[13..17] == "ads.";
      assert OccursAt("ads.", url, 13);
    }
    assert IsSubstring("ads.", url) && "ads." in ["ads."];
  }
}

=== FILE: links.dfy ===
/** Turning a fetched page into candidate links (`normalize_link`,
    `Normalize_link_old` and `Extract_Urls` in doc.go).

    Two library calls are not modelled and enter as function parameters:
    the link scanner `All`, and `url.Parse` of the link and of the base
    followed by `ResolveReference(...).String()`, folded into one
    `resolve` function that reports which parse failed first. */
module Links {
  import opened Base
  import opened Strings
  import opened Whitespace
  import opened Filter

  /** A fetched response body, as text. */
  type Page = string

  /** Outcome of parsing a cleaned link and its base URL, and resolving one against the other. */
  datatype Resolution =
    | LinkUnparsable          // url.Parse of the link failed
    | BaseUnparsable          // url.Parse of the base URL failed
    | Resolved(text: string)  // the resolved absolute URL, as printed by String()

  /** `normalize_link`: strip whitespace, resolve against `rootUrl`, strip
      again; when either URL does not parse, fall back to the stripped link. */
  function NormalizeLink(link: string, rootUrl: string, resolve: (string, string) -> Resolution): (r: string)
    ensures WhiteSpaceFree(r)
    ensures !resolve(RemoveWhiteSpaceNewLine(link), rootUrl).Resolved? ==> r == RemoveWhiteSpaceNewLine(link)
    ensures resolve(RemoveWhiteSpaceNewLine(link), rootUrl).Resolved? ==>
              r == Strip(resolve(RemoveWhiteSpaceNewLine(link), rootUrl).text, WhiteSpace)
  {
    var cleaned := RemoveWhiteSpaceNewLine(link);
    RemoveWhiteSpaceNewLineSpec(link, "");
    match resolve(cleaned, rootUrl)
    case LinkUnparsable => cleaned
    case BaseUnparsable => cleaned
    case Resolved(full) =>
      RemoveWhiteSpaceNewLineSpec(full, "");
      RemoveWhiteSpaceNewLineIsStrip(full);
      RemoveWhiteSpaceNewLine(full)
  }

  /** Normalizing a normalized link changes nothing, as long as resolving the
      (stripped) result of a resolution against the same base gives it back,
      which reference resolution does for an absolute URL. */
  lemma NormalizeLinkIdempotent(link: string, rootUrl: string, resolve: (string, string) -> Resolution)
    requires forall u :: resolve(u, rootUrl).Resolved? ==>
               var v := RemoveWhiteSpaceNewLine(resolve(u, rootUrl).text); resolve(v, rootUrl) == Resolved(v)
    ensures NormalizeLink(NormalizeLink(link, rootUrl, resolve), rootUrl, resolve)
         == NormalizeLink(link, rootUrl, resolve)
  {
    var n := NormalizeLink(link, rootUrl, resolve);
    RemoveWhiteSpaceNewLineKeepsClean(n);
    var cleaned := RemoveWhiteSpaceNewLine(link);
    RemoveWhiteSpaceNewLineSpec(link, "");
    match resolve(cleaned, rootUrl)
    case LinkUnparsable =>
    case BaseUnparsable =>
    case Resolved(full) =>
      RemoveWhiteSpaceNewLineSpec(full, "");
  }

  /** `Normalize_link_old`: a root-relative path (one leading slash, not two)
      is appended to the root URL; anything else is returned as is. */
  function NormalizeLinkOld(url: string, rootUrl: string): (r: string)
    ensures |url| <= |r| && r[|r| - |url|..] == url
    ensures r != url ==> |url| > 0 && url[0] == '/' && (|url| == 1 || url[1] != '/')
    ensures r != url ==> r[..|r| - |url|] == rootUrl
    ensures |url| > 0 && url[0] == '/' && (|url| == 1 || url[1] != '/') ==> |r| == |rootUrl| + |url|
  {
    if StartsWith(url, "/") && !StartsWith(url, "//") then rootUrl + url else url
  }

  /** With a root URL that does not itself start with a slash, applying
      `Normalize_link_old` twice is the same as applying it once. */
  lemma NormalizeLinkOldIdempotent(url: string, rootUrl: string)
    requires rootUrl == "" || rootUrl[0] != '/'
    ensures NormalizeLinkOld(NormalizeLinkOld(url, rootUrl), rootUrl) == NormalizeLinkOld(url, rootUrl)
  {
    var once := NormalizeLinkOld(url, rootUrl);
    if once != url && rootUrl != "" {
      assert once[0] == rootUrl[0];
    }
  }

  /** The accepted normalized forms of `hrefs`, as the loop in `Extract_Urls` collects them. */
  function AcceptedLinks(hrefs: seq<string>, rootUrl: string, blacklist: seq<string>,
                         resolve: (string, string) -> Resolution): (r: set<string>)
    ensures forall u :: u in r <==>
              (exists h :: h in hrefs && u == NormalizeLink(h, rootUrl, resolve)) && ShouldAcceptUrl(u, blacklist)
    decreases |hrefs|
  {
    if |hrefs| == 0 then {}
    else
      var u := NormalizeLink(hrefs[0], rootUrl, resolve);
      var rest := AcceptedLinks(hrefs[1..], rootUrl, blacklist, resolve);
      assert forall h :: h in hrefs <==> h == hrefs[0] || h in hrefs[1..];
      if ShouldAcceptUrl(u, blacklist) then {u} + rest else rest
  }

  /** `Extract_Urls`: no body gives no links; otherwise the links the scanner
      finds, normalized against `rootUrl`, that the filter accepts. */
  function ExtractUrls(body: Option<Page>, rootUrl: string, blacklist: seq<string>,
                       scan: Page -> seq<string>, resolve: (string, string) -> Resolution): (r: set<string>)
    ensures body.None? ==> r == {}
    ensures forall u :: u in r ==> ShouldAcceptUrl(u, blacklist) && WhiteSpaceFree(u)
    ensures body.Some? ==> forall u :: u in r <==>
              (exists h :: h in scan(body.value) && u == NormalizeLink(h, rootUrl, resolve)) && ShouldAcceptUrl(u, blacklist)
  {
    match body
    case None => {}
    case Some(page) => AcceptedLinks(scan(page), rootUrl, blacklist, resolve)
  }

  /** A link that is blacklisted, or contains a blacklisted entry, never
      comes back out of any later extraction. */
  lemma ExtractionRespectsBlacklist(body: Option<Page>, rootUrl: string, blacklist: seq<string>, more: seq<string>,
                                    url: string, scan: Page -> seq<string>, resolve: (string, string) -> Resolution)
    requires IsBlacklisted(url, blacklist)
    ensures url !in ExtractUrls(body, rootUrl, blacklist + more, scan, resolve)
  {
    BlacklistMonotone(url, blacklist, more);
  }
}

=== FILE: random.dfy ===
/** Random choices of the crawler (`CryptRandom`, `choiseRandomLink` and
    `SleepRandom` in doc.go).

    crypto/rand's `Int(reader, n)` returns a uniform value in [0, n) and
    panics when n is not positive. The model takes the draw as a parameter
    `draw: nat` and folds it into the range with `%`; only the range
    contract and the panic condition are modelled, not the distribution. */
module Random {
  import opened Base

  /** `CryptRandom(minRange, maxRange)` as written: a value in
      [0, maxRange - minRange). It is NOT shifted by `minRange`. */
  function CryptRandom(minRange: int, maxRange: int, draw: nat): (r: Result<int>)
    ensures r.Ok? <==> minRange < maxRange
    ensures r.Ok? ==> 0 <= r.value < maxRange - minRange
  {
    if maxRange - minRange <= 0 then Panicked(EmptyRange)
    else Ok(draw % (maxRange - minRange))
  }

  /** The written version can return a value below `minRange`: asked for a
      value in [5, 10), it returns 0 on the zero draw. */
  lemma CryptRandomIgnoresMin()
    ensures CryptRandom(5, 10, 0) == Ok(0)
    ensures CryptRandom(5, 10, 0).value < 5
  {
  }

  /** The range the name promises: a value in [minRange, maxRange). */
  function CryptRandomFrom(minRange: int, maxRange: int, draw: nat): (r: Result<int>)
    ensures r.Ok? <==> minRange < maxRange
    ensures r.Ok? ==> minRange <= r.value < maxRange
  {
    match CryptRandom(minRange, maxRange, draw)
    case Panicked(p) => Panicked(p)
    case Ok(offset) => Ok(minRange + offset)
  }

  lemma ModSmall(k: int, n: int)
    requires 0 <= k < n
    ensures k % n == k
  {
  }

  /** Every value of [minRange, maxRange) is reachable by some draw, and for
      ranges starting at 0 the two versions agree. */
  lemma CryptRandomFromCovers(minRange: int, maxRange: int, v: int, draw: nat)
    requires minRange <= v < maxRange
    ensures CryptRandomFrom(minRange, maxRange, v - minRange) == Ok(v)
    ensures CryptRandomFrom(0, maxRange, draw) == CryptRandom(0, maxRange, draw)
  {
    ModSmall(v - minRange, maxRange - minRange);
  }

  /** `order` lists the members of `links` once each: the order in which
      Go's `range` visits the keys of a map. */
  ghost predicate IsEnumeration(order: seq<string>, links: set<string>) {
    && (forall x :: x in order <==> x in links)
    && (forall i, j :: 0 <= i < j < |order| ==> order[i] != order[j])
  }

  /** An enumeration has as many entries as the set has members. */
  lemma {:induction false} EnumerationSize(order: seq<string>, links: set<string>)
    requires IsEnumeration(order, links)
    ensures |order| == |links|
    decreases |order|
  {
    if |order| != 0 {
      var rest := links - {order[0]};
      forall x
        ensures x in order[1..] <==> x in rest
      {
        if x in order[1..] {
          var k :| 1 <= k < |order| && order[k] == x;
          assert order[0] != order[k];
        }
        if x in rest {
          var k :| 0 <= k < |order| && order[k] == x;
          assert k != 0;
          assert order[1..][k - 1] == x;
        }
      }
      assert forall i, j :: 0 <= i < j < |order[1..]| ==> order[1..][i] == order[i + 1] && order[1..][j] == order[j + 1];
      EnumerationSize(order[1..], rest);
    }
  }

  /** The loop in `choiseRandomLink`: walk the keys in `order`, counting
      `i` down, and stop when it reaches zero; falling off the end is the
      `panic("never")`. */
  function NthInOrder(order: seq<string>, i: int): (r: Result<string>)
    ensures r.Ok? <==> 0 <= i < |order|
    ensures r.Ok? ==> r.value == order[i]
    ensures r.Panicked? ==> r.panic == NeverReached
    decreases |order|
  {
    if |order| == 0 then Panicked(NeverReached)
    else if i == 0 then Ok(order[0])
    else NthInOrder(order[1..], i - 1)
  }

  /** `choiseRandomLink`: a random index below the number of links, then
      the key at that position of the map's iteration order. For a
      non-empty set neither panic can happen, and the result is a member. */
  function ChooseRandomLink(links: set<string>, order: seq<string>, draw: nat): (r: Result<string>)
    requires IsEnumeration(order, links)
    ensures r.Ok? <==> links != {}
    ensures r.Ok? ==> r.value in links
    ensures links == {} ==> r == Panicked(EmptyRange)
  {
    EnumerationSize(order, links);
    match CryptRandom(0, |links|, draw)
    case Panicked(p) => Panicked(p)
    case Ok(i) => NthInOrder(order, i)
  }

  /** Every link of a non-empty set is chosen by some draw. */
  lemma ChooseRandomLinkCovers(links: set<string>, order: seq<string>, u: string)
    requires IsEnumeration(order, links) && u in links
    ensures exists draw: nat :: ChooseRandomLink(links, order, draw) == Ok(u)
  {
    EnumerationSize(order, links);
    var k :| 0 <= k < |order| && order[k] == u;
    ModSmall(k, |links|);
    assert CryptRandom(0, |links|, k) == Ok(k);
    assert NthInOrder(order, k) == Ok(u);
    assert ChooseRandomLink(links, order, k) == Ok(u);
  }

  /** `SleepRandom` as written: the pause in milliseconds. A zero maximum
      disables it; otherwise it is `CryptRandom(minSleep, maxSleep)`, so the
      pause lies in [0, maxSleep - minSleep), and a maximum not above the
      minimum makes crypto/rand panic. */
  function SleepRandom(minSleep: int, maxSleep: int, draw: nat): (r: Result<int>)
    ensures maxSleep == 0 ==> r == Ok(0)
    ensures maxSleep != 0 ==> (r.Panicked? <==> maxSleep <= minSleep)
    ensures maxSleep != 0 && r.Ok? ==> 0 <= r.value < maxSleep - minSleep
  {
    if maxSleep == 0 then Ok(0)
    else CryptRandom(minSleep, maxSleep, draw)
  }

  /** The pause the configuration describes: in [minSleep, maxSleep), using
      the corrected `CryptRandomFrom`. */
  function SleepRandomFrom(minSleep: int, maxSleep: int, draw: nat): (r: Result<int>)
    ensures maxSleep == 0 ==> r == Ok(0)
    ensures maxSleep != 0 ==> (r.Panicked? <==> maxSleep <= minSleep)
    ensures maxSleep != 0 && r.Ok? ==> minSleep <= r.value < maxSleep
  {
    if maxSleep == 0 then Ok(0)
    else CryptRandomFrom(minSleep, maxSleep, draw)
  }

  /** The written and the corrected pause panic under the same settings and,
      when enabled, differ by exactly `minSleep`; asked for [5, 10) the
      written one pauses 0 ms on the zero draw. */
  lemma SleepRandomShifted(minSleep: int, maxSleep: int, draw: nat)
    ensures SleepRandom(minSleep, maxSleep, draw).Panicked? <==> SleepRandomFrom(minSleep, maxSleep, draw).Panicked?
    ensures maxSleep != 0 && SleepRandom(minSleep, maxSleep, draw).Ok? ==>
              SleepRandomFrom(minSleep, maxSleep, draw).value == minSleep + SleepRandom(minSleep, maxSleep, draw).value
    ensures SleepRandom(5, 10, 0) == Ok(0) && SleepRandomFrom(5, 10, 0) == Ok(5)
  {
  }

  /** The sleep settings under which `SleepRandom` panics. */
  predicate SleepPanics(minSleep: int, maxSleep: int) {
    maxSleep != 0 && maxSleep <= minSleep
  }
}

=== FILE: strings.dfy ===
/** Substring search as used by the crawler (Go's `strings.Contains` and `strings.HasPrefix`). */
module Strings {

  /** `sub` occurs in `s` starting at index `i`. */
  ghost predicate OccursAt(sub: string, s: string, i: int) {
    0 <= i && i + |sub| <= |s| && s[i..i + |sub|] == sub
  }

  /** Reference definition: `sub` occurs somewhere in `s`. */
  ghost predicate IsSubstring(sub: string, s: string) {
    exists i :: OccursAt(sub, s, i)
  }

  /** `strings.HasPrefix(s, prefix)`. */
  predicate StartsWith(s: string, prefix: string) {
    |prefix| <= |s| && s[..|prefix|] == prefix
  }

  /** `strings.Contains(s, sub)`: a left-to-right search for `sub` in `s`. */
  function Contains(s: string, sub: string): bool
    decreases |s|
  {
    if StartsWith(s, sub) then true
    else if |s| == 0 then false
    else Contains(s[1..], sub)
  }

  /** An occurrence in the tail of `s` is an occurrence one index later in `s`. */
  lemma OccursShift(sub: string, s: string, i: nat)
    requires |s| > 0
    ensures OccursAt(sub, s[1..], i) <==> OccursAt(sub, s, i + 1)
  {
    if i + |sub| <= |s| - 1 {
      assert s[1..][i..i + |sub|] == s[i + 1..i + 1 + |sub|];
    }
  }

  /** The search finds `sub` exactly when it occurs in `s`. */
  lemma {:induction false} ContainsIsSubstring(s: string, sub: string)
    ensures Contains(s, sub) <==> IsSubstring(sub, s)
    decreases |s|
  {
    if StartsWith(s, sub) {
      assert OccursAt(sub, s, 0);
    } else if |s| == 0 {
      // an occurrence in the empty string would be a prefix occurrence
    } else {
      ContainsIsSubstring(s[1..], sub);
      if IsSubstring(sub, s) {
        var i :| OccursAt(sub, s, i);
        assert i != 0;
        OccursShift(sub, s, i - 1);
      }
      if IsSubstring(sub, s[1..]) {
        var i :| OccursAt(sub, s[1..], i);
        OccursShift(sub, s, i);
      }
    }
  }

  /** Searching for a one-character string is a membership test. */
  lemma ContainsChar(s: string, c: char)
    ensures Contains(s, [c]) <==> c in s
  {
    ContainsIsSubstring(s, [c]);
    if c in s {
      var i :| 0 <= i < |s| && s[i] == c;
      assert OccursAt([c], s, i);
    }
    if IsSubstring([c], s) {
      var i :| OccursAt([c], s, i);
      assert s[i] == s[i..i + 1][0];
    }
  }

  /** The empty string occurs in every string, and every string occurs in itself. */
  lemma SubstringBasics(s: string)
    ensures IsSubstring("", s)
    ensures IsSubstring(s, s)
  {
    assert OccursAt("", s, 0);
    assert OccursAt(s, s, 0);
  }

  /** An occurrence inside a slice is an occurrence in the whole string. */
  lemma SubstringOfSlice(sub: string, s: string, i: int, j: int)
    requires 0 <= i <= j <= |s|
    requires IsSubstring(sub, s[i..j])
    ensures IsSubstring(sub, s)
  {
    var k :| OccursAt(sub, s[i..j], k);
    forall t | 0 <= t < |sub|
      ensures s[i + k + t] == sub[t]
    {
      assert s[i..j][k..k + |sub|][t] == sub[t];
    }
    assert s[i + k..i + k + |sub|] == sub;
    assert OccursAt(sub, s, i + k);
  }

  /** Every character of an occurring string is a character of the whole. */
  lemma SubstringChars(sub: string, s: string, k: int)
    requires IsSubstring(sub, s) && 0 <= k < |sub|
    ensures sub[k] in s
  {
    var i :| OccursAt(sub, s, i);
    assert s[i..i + |sub|][k] == s[i + k];
  }
}

=== FILE: validator.dfy ===
/** The URL validator (`IsValidUrl`, `UrlValidator.Init` in doc.go).

    Go's `MatchString` reports whether the expression
      (https?|ftp|file)://[-A-Za-z0-9+&@#/%?=~_|!:,.;]+[-A-Za-z0-9+&@#/%=~_|]
    matches ANY substring of its argument (the expression is not anchored).
    `MatchesSomewhere` states that directly; `IsValidUrl` is a hand-written
    scanner, proved equal to it by `IsValidUrlMatches`. */
module UrlValidator {
  import opened Strings

  predicate IsAlnum(c: char) {
    'A' <= c <= 'Z' || 'a' <= c <= 'z' || '0' <= c <= '9'
  }

  /** The repeated class `[-A-Za-z0-9+&@#/%?=~_|!:,.;]`. */
  predicate InBodyClass(c: char) {
    IsAlnum(c) || c in "-+&@#/%?=~_|!:,.;"
  }

  /** The final class `[-A-Za-z0-9+&@#/%=~_|]`. */
  predicate InLastClass(c: char) {
    IsAlnum(c) || c in "-+&@#/%=~_|"
  }

  /** The alternatives of `(https?|ftp|file)`. */
  const Schemes: seq<string> := ["http", "https", "ftp", "file"]

  const Separator: string := "://"

  // ---------------------------------------------------------------------
  // Reference semantics of the expression

  /** `s[a..b]` consists of body-class characters only. */
  ghost predicate AllBody(s: string, a: int, b: int)
    requires 0 <= a <= b <= |s|
  {
    forall k :: a <= k < b ==> InBodyClass(s[k])
  }

  /** `t` as a whole is matched by `[body]+[last]`. */
  ghost predicate TailMatches(t: string) {
    2 <= |t| && AllBody(t, 0, |t| - 1) && InLastClass(t[|t| - 1])
  }

  /** `t` as a whole is matched by the expression, using scheme `sc`. */
  ghost predicate MatchesWith(t: string, sc: string) {
    StartsWith(t, sc + Separator) && TailMatches(t[|sc| + |Separator|..])
  }

  /** `t` as a whole is matched by the expression. */
  ghost predicate PatternMatches(t: string) {
    exists sc :: sc in Schemes && MatchesWith(t, sc)
  }

  /** The substring `s[i..j]` is matched by the expression. */
  ghost predicate MatchesBetween(s: string, i: int, j: int) {
    0 <= i <= j <= |s| && PatternMatches(s[i..j])
  }

  /** Unanchored matching: some substring of `s` is matched. */
  ghost predicate MatchesSomewhere(s: string) {
    exists i, j :: MatchesBetween(s, i, j)
  }

  // ---------------------------------------------------------------------
  // The scanner

  /** Inside a run of body-class characters that began before `q`: does the
      run reach a last-class character at index `q` or later? */
  function RunEndsFrom(s: string, q: nat): bool
    decreases |s| - q
  {
    if q >= |s| then false
    else if InLastClass(s[q]) then true
    else if InBodyClass(s[q]) then RunEndsFrom(s, q + 1)
    else false
  }

  /** `[body]+[last]` matches some substring starting at `p`. */
  function TailAt(s: string, p: nat): bool {
    p < |s| && InBodyClass(s[p]) && RunEndsFrom(s, p + 1)
  }

  /** Scheme `sc` followed by the separator starts at index `i`. */
  function SchemeAt(s: string, i: nat, sc: string): bool {
    i <= |s| && StartsWith(s[i..], sc + Separator)
  }

  /** The expression with scheme `sc` matches some substring starting at `i`. */
  function MatchAtScheme(s: string, i: nat, sc: string): bool {
    SchemeAt(s, i, sc) && TailAt(s, i + |sc| + |Separator|)
  }

  /** The whole expression matches some substring starting at `i`. */
  function MatchAt(s: string, i: nat): bool {
    exists sc :: sc in Schemes && MatchAtScheme(s, i, sc)
  }

  /** Tries every start index from `i` on. */
  function ScanFrom(s: string, i: nat): bool
    decreases |s| - i
  {
    if i >= |s| then false else MatchAt(s, i) || ScanFrom(s, i + 1)
  }

  /** `IsValidUrl(str1)`. */
  function IsValidUrl(s: string): bool {
    ScanFrom(s, 0)
  }

  // ---------------------------------------------------------------------
  // The scanner decides the expression

  /** The run of body-class characters from `q` ends with a last-class character at `j - 1`. */
  ghost predicate RunEndsAt(s: string, q: int, j: int) {
    0 <= q < j <= |s| && AllBody(s, q, j - 1) && InLastClass(s[j - 1])
  }

  lemma {:induction false} RunEndsFromSpec(s: string, q: nat)
    ensures RunEndsFrom(s, q) <==> exists j :: RunEndsAt(s, q, j)
    decreases |s| - q
  {
    if q < |s| {
      if InLastClass(s[q]) {
        assert RunEndsAt(s, q, q + 1);
      } else {
        RunEndsFromSpec(s, q + 1);
        if RunEndsFrom(s, q) {
          var j :| RunEndsAt(s, q + 1, j);
          assert RunEndsAt(s, q, j);
        }
        if j :| RunEndsAt(s, q, j) {
          assert j - 1 != q;
          assert InBodyClass(s[q]);
          assert RunEndsAt(s, q + 1, j);
        }
      }
    }
  }

  /** A run ending found in `s` is the tail pattern of the slice `s[p..j]`, and back. */
  lemma TailSlice(s: string, p: int, j: int)
    requires 0 <= p < j <= |s|
    ensures TailMatches(s[p..j]) <==> (InBodyClass(s[p]) && RunEndsAt(s, p + 1, j))
  {
    var t := s[p..j];
    assert forall k :: 0 <= k < |t| ==> t[k] == s[p + k];
    if TailMatches(t) {
      assert InBodyClass(t[0]);
      forall k | p + 1 <= k < j - 1
        ensures InBodyClass(s[k])
      {
        assert InBodyClass(t[k - p]);
      }
    }
    if InBodyClass(s[p]) && RunEndsAt(s, p + 1, j) {
      forall k | 0 <= k < |t| - 1
        ensures InBodyClass(t[k])
      {
        if k > 0 {
          assert InBodyClass(s[p + k]);
        }
      }
    }
  }

  lemma TailAtSpec(s: string, p: nat)
    ensures TailAt(s, p) <==> exists j :: p <= j <= |s| && TailMatches(s[p..j])
  {
    RunEndsFromSpec(s, p + 1);
    if TailAt(s, p) {
      var j :| RunEndsAt(s, p + 1, j);
      TailSlice(s, p, j);
    }
    if j :| p <= j <= |s| && TailMatches(s[p..j]) {
      TailSlice(s, p, j);
    }
  }

  /** A match of scheme `sc` on `s[i..j]` is a scheme at `i` followed by a tail match on the rest. */
  lemma MatchSlice(s: string, i: int, j: int, sc: string)
    requires 0 <= i <= j <= |s|
    ensures MatchesWith(s[i..j], sc) <==>
              (SchemeAt(s, i, sc) && i + |sc| + |Separator| <= j && TailMatches(s[i + |sc| + |Separator|..j]))
  {
    var n := |sc| + |Separator|;
    var t := s[i..j];
    if n <= |t| {
      assert t[..n] == s[i..][..n];
      assert t[n..] == s[i + n..j];
    }
    if SchemeAt(s, i, sc) && i + n <= j {
      assert t[..n] == s[i..][..n];
    }
  }

  lemma MatchAtSound(s: string, i: nat)
    requires MatchAt(s, i)
    ensures exists j :: MatchesBetween(s, i, j)
  {
    var sc :| sc in Schemes && MatchAtScheme(s, i, sc);
    var p := i + |sc| + |Separator|;
    TailAtSpec(s, p);
    var j :| p <= j <= |s| && TailMatches(s[p..j]);
    MatchSlice(s, i, j, sc);
    assert MatchesBetween(s, i, j);
  }

  lemma MatchAtComplete(s: string, i: nat, j: int, sc: string)
    requires i <= j <= |s| && sc in Schemes && MatchesWith(s[i..j], sc)
    ensures MatchAt(s, i)
  {
    var p := i + |sc| + |Separator|;
    MatchSlice(s, i, j, sc);
    TailAtSpec(s, p);
    assert MatchAtScheme(s, i, sc);
  }

  lemma MatchAtSpec(s: string, i: nat)
    ensures MatchAt(s, i) <==> exists j :: MatchesBetween(s, i, j)
  {
    if MatchAt(s, i) {
      MatchAtSound(s, i);
    }
    if j :| MatchesBetween(s, i, j) {
      var sc :| sc in Schemes && MatchesWith(s[i..j], sc);
      MatchAtComplete(s, i, j, sc);
    }
  }

  /** The expression matches a substring starting at index `i` or later. */
  ghost predicate MatchesFrom(s: string, i: int) {
    exists a, j :: i <= a && MatchesBetween(s, a, j)
  }

  /** The expression never matches an empty string. */
  lemma NoEmptyMatch(s: string, a: int, j: int)
    requires |s| <= a
    ensures !MatchesBetween(s, a, j)
  {
  }

  lemma {:induction false} ScanFromSpec(s: string, i: nat)
    ensures ScanFrom(s, i) <==> MatchesFrom(s, i)
    decreases |s| - i
  {
    if i < |s| {
      assert MatchAt(s, i) <==> exists j :: MatchesBetween(s, i, j) by {
        MatchAtSpec(s, i);
      }
      ScanFromSpec(s, i + 1);
      if MatchesFrom(s, i) {
        var a, j :| i <= a && MatchesBetween(s, a, j);
        if a != i {
          assert MatchesFrom(s, i + 1);
        }
      }
    } else if MatchesFrom(s, i) {
      var a, j :| i <= a && MatchesBetween(s, a, j);
      NoEmptyMatch(s, a, j);
    }
  }

  /** The scanner accepts exactly the strings in which the expression matches somewhere. */
  lemma IsValidUrlMatches(s: string)
    ensures IsValidUrl(s) <==> MatchesSomewhere(s)
  {
    ScanFromSpec(s, 0);
  }

  // ---------------------------------------------------------------------
  // Consequences

  /** Every accepted string contains the separator `://`; so a string without it,
      the empty string among them, is rejected. */
  lemma AcceptedHasSeparator(s: string)
    ensures IsValidUrl(s) ==> IsSubstring(Separator, s)
    ensures IsValidUrl(s) ==> 8 <= |s|
  {
    IsValidUrlMatches(s);
    if IsValidUrl(s) {
      var i, j :| MatchesBetween(s, i, j);
      var sc :| sc in Schemes && MatchesWith(s[i..j], sc);
      var t := s[i..j];
      assert t[|sc|..|sc| + 3] == (sc + Separator)[|sc|..];
      assert OccursAt(Separator, t, |sc|);
      SubstringOfSlice(Separator, s, i, j);
    }
  }

  /** A scheme and separator at index `i`, followed by a body-class character
      and then a last-class character, make the whole string acceptable. */
  lemma AcceptsAt(s: string, i: nat, sc: string)
    requires sc in Schemes && i + |sc| + 5 <= |s|
    requires s[i..i + |sc| + 3] == sc + Separator
    requires InBodyClass(s[i + |sc| + 3]) && InLastClass(s[i + |sc| + 4])
    ensures IsValidUrl(s)
  {
    var j := i + |sc| + 5;
    var t := s[i..j];
    assert t[..|sc| + 3] == sc + Separator;
    var tail := t[|sc| + 3..];
    assert tail[0] == s[i + |sc| + 3] && tail[1] == s[i + |sc| + 4];
    assert TailMatches(tail);
    assert MatchesWith(t, sc);
    assert MatchesBetween(s, i, j);
    IsValidUrlMatches(s);
  }

  /** `https://` followed by two letters or digits is accepted, whatever follows. */
  lemma HttpsThenTwoAlnum(rest: string)
    requires 2 <= |rest| && IsAlnum(rest[0]) && IsAlnum(rest[1])
    ensures IsValidUrl("https://" + rest)
  {
    var s := "https://" + rest;
    assert s[..8] == "https" + Separator;
    assert s[8] == rest[0] && s[9] == rest[1];
    AcceptsAt(s, 0, "https");
  }

  /** The URLs of the repository's tests, `https://` followed by `rest`, are
      accepted. */
  lemma TestUrlsAccepted(rest: string)
    requires rest == "www.163.com"
          || rest == "blog.csdn.net/" + "jeanphorn/article/details/78002490"
          || rest == "www.sogou.com/web?ie=UTF-8&query=url"
    ensures IsValidUrl("https://" + rest)
  {
    HttpsThenTwoAlnum(rest);
  }

  /** A string in which no scheme followed by `://` starts anywhere is rejected. */
  lemma WithoutSchemeRejected(s: string)
    requires forall i: nat, sc :: sc in Schemes && i <= |s| ==> !SchemeAt(s, i, sc)
    ensures !IsValidUrl(s)
  {
    IsValidUrlMatches(s);
    if MatchesSomewhere(s) {
      var i, j :| MatchesBetween(s, i, j);
      var sc :| sc in Schemes && MatchesWith(s[i..j], sc);
      MatchSlice(s, i, j, sc);
    }
  }

  /** The empty string and the text `not a url` are rejected. */
  lemma NonUrlsRejected(s: string)
    requires s == "" || s == "not a url"
    ensures !IsValidUrl(s)
  {
    AcceptedHasSeparator(s);
    if IsSubstring(Separator, s) {
      SubstringChars(Separator, s, 0);
    }
  }
}

=== FILE: whitespace.dfy ===
/** Whitespace stripping applied to every link before and after resolution
    (`removeWhiteSpace` and `removeWhiteSpaceNewLine` in doc.go). */
module Whitespace {
  import opened Strings

  /** The characters `removeWhiteSpaceNewLine` deletes. */
  const WhiteSpace: set<char> := {' ', '\t', '\n'}

  /** No character of `s` belongs to `bad`. */
  predicate NoneOf(s: string, bad: set<char>) {
    forall k :: 0 <= k < |s| ==> s[k] !in bad
  }

  predicate WhiteSpaceFree(s: string) {
    NoneOf(s, WhiteSpace)
  }

  /** Deletes every character of `bad` from `s`, keeping the rest in order.
      Go's `strings.Replace(s, c, "", -1)` is `Strip(s, {c})`. */
  function Strip(s: string, bad: set<char>): (r: string)
    ensures NoneOf(r, bad)
    ensures |r| <= |s|
    decreases |s|
  {
    if |s| == 0 then ""
    else (if s[0] in bad then "" else [s[0]]) + Strip(s[1..], bad)
  }

  /** `removeWhiteSpace`: deletes spaces, skipping the rewrite when there is none. */
  function RemoveWhiteSpace(s: string): string {
    if Contains(s, " ") then Strip(s, {' '}) else s
  }

  /** `removeWhiteSpaceNewLine`: three guarded passes deleting spaces, tabs and newlines. */
  function RemoveWhiteSpaceNewLine(s: string): string {
    var noSpace := if Contains(s, " ") then Strip(s, {' '}) else s;
    var noTab := if Contains(noSpace, "\t") then Strip(noSpace, {'\t'}) else noSpace;
    if Contains(noTab, "\n") then Strip(noTab, {'\n'}) else noTab
  }

  /** Stripping distributes over concatenation: nothing is reordered. */
  lemma {:induction false} StripAppend(a: string, b: string, bad: set<char>)
    ensures Strip(a + b, bad) == Strip(a, bad) + Strip(b, bad)
    decreases |a|
  {
    if |a| == 0 {
      assert a + b == b;
    } else {
      assert (a + b)[1..] == a[1..] + b;
      StripAppend(a[1..], b, bad);
    }
  }

  /** Stripping a single character keeps it exactly when it is not in `bad`. */
  lemma StripChar(c: char, bad: set<char>)
    ensures Strip([c], bad) == (if c in bad then [] else [c])
  {
  }

  /** A string is left unchanged exactly when it contains nothing to strip. */
  lemma {:induction false} StripIdentity(s: string, bad: set<char>)
    ensures Strip(s, bad) == s <==> NoneOf(s, bad)
    decreases |s|
  {
    if |s| != 0 {
      StripIdentity(s[1..], bad);
      if s[0] in bad {
        assert |Strip(s, bad)| < |s|;
      }
    }
  }

  /** Two passes delete the union of the two character sets. */
  lemma {:induction false} StripTwice(s: string, a: set<char>, b: set<char>)
    ensures Strip(Strip(s, a), b) == Strip(s, a + b)
    decreases |s|
  {
    if |s| != 0 {
      var head := if s[0] in a then "" else [s[0]];
      StripAppend(head, Strip(s[1..], a), b);
      StripTwice(s[1..], a, b);
    }
  }

  /** Stripping is idempotent. */
  lemma StripIdempotent(s: string, bad: set<char>)
    ensures Strip(Strip(s, bad), bad) == Strip(s, bad)
  {
    StripIdentity(Strip(s, bad), bad);
  }

  /** The `strings.Contains` guard is only a shortcut: a string without `c`
      is what stripping `c` would give anyway. */
  lemma GuardedStrip(s: string, c: char)
    ensures (if Contains(s, [c]) then Strip(s, {c}) else s) == Strip(s, {c})
  {
    ContainsChar(s, c);
    StripIdentity(s, {c});
  }

  /** `removeWhiteSpace` deletes exactly the spaces. */
  lemma RemoveWhiteSpaceIsStrip(s: string)
    ensures RemoveWhiteSpace(s) == Strip(s, {' '})
    ensures ' ' !in RemoveWhiteSpace(s)
  {
    GuardedStrip(s, ' ');
  }

  /** The three guarded passes of `removeWhiteSpaceNewLine` equal one pass
      deleting spaces, tabs and newlines together. */
  lemma RemoveWhiteSpaceNewLineIsStrip(s: string)
    ensures RemoveWhiteSpaceNewLine(s) == Strip(s, WhiteSpace)
  {
    GuardedStrip(s, ' ');
    var noSpace := Strip(s, {' '});
    GuardedStrip(noSpace, '\t');
    var noTab := Strip(noSpace, {'\t'});
    GuardedStrip(noTab, '\n');
    StripTwice(s, {' '}, {'\t'});
    StripTwice(s, {' '} + {'\t'}, {'\n'});
    assert {' '} + {'\t'} + {'\n'} == WhiteSpace;
  }

  /** The result of `removeWhiteSpaceNewLine` holds no space, tab or newline,
      every other character survives in its original order, and a second
      application changes nothing. */
  lemma RemoveWhiteSpaceNewLineSpec(s: string, t: string)
    ensures WhiteSpaceFree(RemoveWhiteSpaceNewLine(s))
    ensures RemoveWhiteSpaceNewLine(s + t) == RemoveWhiteSpaceNewLine(s) + RemoveWhiteSpaceNewLine(t)
    ensures forall c :: c !in WhiteSpace ==> RemoveWhiteSpaceNewLine([c]) == [c]
    ensures RemoveWhiteSpaceNewLine(RemoveWhiteSpaceNewLine(s)) == RemoveWhiteSpaceNewLine(s)
  {
    RemoveWhiteSpaceNewLineIsStrip(s);
    RemoveWhiteSpaceNewLineIsStrip(t);
    RemoveWhiteSpaceNewLineIsStrip(s + t);
    StripAppend(s, t, WhiteSpace);
    forall c | c !in WhiteSpace
      ensures RemoveWhiteSpaceNewLine([c]) == [c]
    {
      RemoveWhiteSpaceNewLineIsStrip([c]);
      StripChar(c, WhiteSpace);
    }
    RemoveWhiteSpaceNewLineIsStrip(Strip(s, WhiteSpace));
    StripIdempotent(s, WhiteSpace);
  }

  /** A string that is already free of whitespace passes through unchanged. */
  lemma RemoveWhiteSpaceNewLineKeepsClean(s: string)
    ensures RemoveWhiteSpaceNewLine(s) == s <==> WhiteSpaceFree(s)
  {
    RemoveWhiteSpaceNewLineIsStrip(s);
    StripIdentity(s, WhiteSpace);
  }
}
